=== FILE: README.md ===
# BouyomiLauncher core, modelled in Dafny

BouyomiLauncher is a browser extension. It reads chat messages aloud through a
local speech engine (Bouyomi-chan), which listens on an HTTP port and, through a
bridge, on a WebSocket. The extension has three sequential pieces, and this
project models their decision logic as pure functions over immutable state.

- **The service-worker relay** (`scripts/back/service-worker.js`):
  - `simpleHash`, the 32-bit content hash. Each step is written with a shift
    and a self-`&`, and is proved equal to `ToInt32(31 * h + c)`.
  - The Web Locks name built from the hash.
  - The persisted dedup ledger (`isMessageProcessed` / `markMessageAsProcessed`),
    with storage taken as the stored list itself.
  - The engine URL and its percent-encoded query.
  - The reply decisions of the `bouyomi-client` port handler and of the
    one-shot `runtime.onMessage` handler.
  - The map of live connections.
- **The page-side client** `Bouyomi.Client` (`scripts/libs/Bouyomi.js`):
  - A bounded FIFO of commands waiting for a connection, with its drain loop.
  - Reconnect bookkeeping with exponential backoff.
  - The `Object.assign` composition of the posted message.
  - `command`. Each asynchronous step is one step function over a state
    record, and what the browser decides comes in as a parameter.
- **The `Bouyomi` facade**: the `client` getter, the storage-change listener of
  `init`, and the dispatch of `speak`/`pause`/`resume`/`skip`.
- **The WebSocket payload** of `sendMessageToSocket` (`modules/YouTube-Live.js`).
- **The storage key table** and `getServiceKey` (`scripts/libs/variables.js`).

What the browser decides becomes a parameter:
- whether `runtime.connect` or `postMessage` throws;
- whether the service worker answers a ping;
- the clock and the random message id;
- the engine's reply to a URL;
- `JSON.stringify` of the hashed content.

Module layout:
- `Wrappers`: Option and Result.
- `Numerals`: `toString(radix)` and its inverse.
- `JsValues`: objects as ordered entry lists, `Object.assign`, rest destructuring, truthiness and `String()`.
- `Strings`: `join` and `split`.
- `UriEncoding`: `encodeURIComponent` with UTF-8, and its decoder.
- `Fingerprint`: the hash and the lock name.
- `Ledger`: the dedup ledger.
- `Relay`: the service-worker handlers.
- `Client`: `Bouyomi.Client`.
- `Facade`: the `Bouyomi` facade.
- `SocketPayload`: the WebSocket payload.
- `StorageKeys`: the key table.

Behaviour of the code worth knowing, which the model keeps as written:

- **Ledger size.** The ledger never holds more than 100 ids once written back.
  It reaches 101 only transiently and then drops to 51.
- **Locks.** The lock is requested without `ifAvailable`, so a second request
  for the same content waits; it does not fail fast. The connection handler's
  "already running" branch is therefore not a lock-contention path.
- **One-shot fetch failure.** A `fetch` or `json()` failure escapes the lock
  callback and lands in the lock's `catch`. The caller then receives the
  "already running" text, not the transport error.
- **Connection-path dedup.** The port handler deduplicates on the lock name, and
  its props still contain `messageId`. So two sends of the same command are
  deduplicated only when their message ids are equal, or when their
  serialisations collide under the 32-bit hash. In the second case, a
  different later message is dropped silently.
- **Default port.** The client's defaults, including `port: 50080`, live on the
  config's prototype. `Object.assign` never copies them, so a client whose
  config sets no `port` sends messages that the relay refuses with the
  missing-port error.

## Model

| member | source | states |
|---|---|---|
| Numerals.ToBase | scripts/back/service-worker.js:18 | `toString(16)` yields at least one character, and every character is a digit of the base. |
| Numerals.ParseToBase | scripts/back/service-worker.js:18 | Reading the rendered digits back most-significant first gives the number, so the rendering loses nothing. |
| Numerals.ToBaseLength | scripts/back/service-worker.js:18 | A number below base^k renders in at most k digits. |
| Numerals.DecimalRoundTrip | modules/YouTube-Live.js:16-22 | `String(n)` of an integer setting below 10^21 in magnitude, with its sign, is read back exactly by a decimal parser. |
| Fingerprint.StepIsTimes31 | scripts/back/service-worker.js:14-15 | One loop step, `((h << 5) - h) + c` followed by `h & h`, equals ToInt32(31·h + c). |
| Fingerprint.HashIsPolynomial | scripts/back/service-worker.js:12-16 | Wrapping to 32 bits at every step gives the same value as wrapping the unbounded polynomial Σ c_i·31^(n-1-i) once at the end. |
| Fingerprint.SimpleHash | scripts/back/service-worker.js:8-19 | The hash is 1 to 8 lower-case hex digits without a leading zero, and its value is the absolute value of the wrapped polynomial. |
| Fingerprint.HexFitsEightDigits | scripts/back/service-worker.js:18 | An absolute value of at most 2^31 needs at most 8 hex digits, so `substring(0, 8)` never cuts anything. |
| Fingerprint.SimpleHashEmpty | scripts/back/service-worker.js:10 | The empty string hashes to `"0"`. |
| Fingerprint.LockNameRoundTrip | scripts/back/service-worker.js:175-176 | A lock name can be split back, at its last dash, into the command-type text and the content hash. |
| Fingerprint.LockNameInjective | scripts/back/service-worker.js:175-176 | Equal lock names imply equal command-type text and equal content hashes. |
| JsValues.Put | scripts/libs/Bouyomi.js:300-304 | Assigning a property makes it read the new value and leaves every other key's value alone. An existing key keeps its place, a new key goes last, and keys stay distinct. |
| JsValues.AssignSpec | scripts/libs/Bouyomi.js:300-304 | After `Object.assign`, a key the source has reads the source's value and any other key reads the target's. The target keeps its keys, gains only the source's, and the keys stay distinct. |
| JsValues.Omit | scripts/back/service-worker.js:168 | The rest object of a destructuring holds exactly the keys not named, with their values, and stays distinct. |
| JsValues.OmitKeepsOrder | scripts/back/service-worker.js:168 | The rest object lists the remaining keys in the order the original object did, which fixes the order of the query built from it. |
| JsValues.OmitPut | scripts/back/service-worker.js:168 | Changing a property the destructuring names leaves the rest object unchanged. |
| Strings.SplitJoin | modules/YouTube-Live.js:16-22 | Splitting a join on its delimiter returns the parts, provided no part but the last holds the delimiter's first character and the last does not hold the delimiter. |
| Ledger.Dedup | scripts/back/service-worker.js:25 | `new Set(list)` keeps each member once and keeps exactly the members of the list. |
| Ledger.MarkProcessed | scripts/back/service-worker.js:33-49 | The list written back has no duplicates and holds only ids that were already stored, plus the marked one. |
| Ledger.MarkKeepsValid | scripts/back/service-worker.js:22-49 | After marking an id, `isMessageProcessed` reports it. A duplicate-free ledger of at most 100 ids stays one. |
| Ledger.MarkCases | scripts/back/service-worker.js:36-45 | Marking a known id writes the same set back. A new id goes last, and when that makes 101 entries the first 50 are dropped. The result never exceeds 100. |
| Ledger.EvictionDropsOldest | scripts/back/service-worker.js:40-43 | On eviction, exactly the 50 earliest-inserted ids disappear and the other 50 stay. |
| Ledger.MarkIdempotent | scripts/back/service-worker.js:36-45 | Marking the same id twice writes what marking it once wrote. |
| Ledger.MarkAllWindow | scripts/back/service-worker.js:33-49 | Marking distinct ids one by one from an empty ledger leaves a suffix of the ids in insertion order. The suffix holds at most 100 ids and at least min(51, count). |
| UriEncoding.EncodeURIComponent | scripts/back/service-worker.js:199 | The output uses only the unreserved characters that `encodeURIComponent` leaves alone, `%`, and upper-case hex digits. |
| UriEncoding.NoQuerySeparators | scripts/back/service-worker.js:199 | An encoded key or value never contains a raw `&` or `=`. |
| UriEncoding.Utf8RoundTrip | scripts/back/service-worker.js:199 | The UTF-8 bytes the encoder escapes decode back to the original string. |
| UriEncoding.EncodeRoundTrip | scripts/back/service-worker.js:199 | Percent-decoding an encoded component, then UTF-8 decoding, returns the component. |
| UriEncoding.EncodeInjective | scripts/back/service-worker.js:199 | Two strings encode alike exactly when they are equal. |
| Relay.Connect | scripts/back/service-worker.js:155-162 | Only a `bouyomi-client` port gets the established reply. The id in that reply is a key of the new map and leads to that port. The map gains at most that one id and keeps every other connection. Any other port name leaves the map unchanged. |
| Relay.Disconnect | scripts/back/service-worker.js:221-224 | A disconnect removes exactly its own id and keeps every other connection. |
| Relay.ConnectThenDisconnect | scripts/back/service-worker.js:158-224 | A connect under a new id adds one entry, and its disconnect restores the map. A connect under an id already present replaces that entry. |
| Relay.QueryOnlyForTalk | scripts/back/service-worker.js:195-204 | When neither the port nor the command-type text contains `?`, the URL has a query exactly for `talk`. `BouyomiGetVoice` goes to `/GetVoiceList`, and every other command to `/<commandType>` with no query. |
| Relay.SplitQuery | scripts/back/service-worker.js:198-200 | The query is empty exactly when there are no props. Otherwise, splitting it on `&` gives back one encoded pair per prop. |
| Relay.QueryRoundTrip | scripts/back/service-worker.js:198-200 | The engine recovers every prop in entry order: each key and each `String(value)` decodes back from its pair. |
| Relay.OnPortMessage | scripts/back/service-worker.js:164-219 | Port handler outcomes. A message without a truthy port gets the missing-port error, with no ledger write and no fetch. A lock name already recorded gets no reply and no write. Any other message always reaches the engine: its lock name is recorded and the engine is asked under that lock, with the URL for the message. The reply is the engine's success or its error message. A valid ledger stays valid. |
| Relay.PortLockIgnoresTimeAndPort | scripts/back/service-worker.js:168-176 | `time` and `port` never affect the lock name, so they never affect dedup on a port. |
| Relay.MessageIdIsPortContent | scripts/back/service-worker.js:168-175 | On a port, `messageId` stays among the hashed props. |
| Relay.PortAtMostOnce | scripts/back/service-worker.js:179-186 | Once a message has reached the engine, the next message with the same command type and props, checked against the ledger the first one left, is dropped silently and the ledger is unchanged. Later repeats are dropped only while the lock name is still in the ledger's window of ids. |
| Relay.OnRuntimeMessage | scripts/back/service-worker.js:229-291 | One-shot handler outcomes. A ping gets status with the connection count and no ledger access. The listener keeps the channel open exactly for pings and messages with a port. The duplicate error comes exactly for a truthy id already recorded. Every other message with a port always reaches the engine, and a truthy id is recorded first, with a failure reported as the lock-busy text. A valid ledger stays valid. |
| Relay.OneShotLockIgnoresIds | scripts/back/service-worker.js:245-264 | `time`, `port` and `messageId` never affect the one-shot lock name. |
| Relay.OneShotAtMostOnce | scripts/back/service-worker.js:252-260 | A request with a port and a truthy id not yet recorded reaches the engine. The next request with that id, checked against the ledger the first one left, gets the duplicate error and no fetch. Later ones get it only while the id is still in the ledger's window of ids. |
| Relay.NoIdNoSuppression | scripts/back/service-worker.js:252-260 | A request with a port and no truthy id always reaches the engine and leaves the ledger alone. |
| Client.ScheduleReconnect | scripts/libs/Bouyomi.js:193-232 | A no-op while a reconnect is pending. At five attempts it only clears the flag. Otherwise it makes exactly one more attempt and arms the timer with that attempt's backoff. |
| Client.InitConnection | scripts/libs/Bouyomi.js:127-170 | Skipped while reconnecting. A connect that works marks the client connected. A connect that throws marks it disconnected and schedules a reconnect: below five attempts, one more attempt with the reconnect pending and its backoff timer armed; at five, nothing new is armed. |
| Client.OnDisconnect | scripts/libs/Bouyomi.js:138-147 | A disconnect always clears `isConnected`, and it schedules a reconnect only when `lastError` is set. |
| Client.ReconnectTimerFires | scripts/libs/Bouyomi.js:220-231 | The timer clears the pending flag. It re-initialises only when the service worker still answers, and then a working connect leaves the client connected. |
| Client.EnsureConnection | scripts/libs/Bouyomi.js:237-242 | A connected client is untouched. A disconnected client with a reconnect pending is untouched too. Otherwise it becomes connected when the connect works. When the connect throws, it is disconnected and a reconnect is scheduled. |
| Client.BackoffDelays | scripts/libs/Bouyomi.js:204-212 | The delays are 1000, 2000, 4000, 8000 and 16000 ms, each twice the one before. |
| Client.GivesUpAfterFive | scripts/libs/Bouyomi.js:193-232 | With every reconnect failing, each round adds one attempt and doubles the wait, up to five. After that no timer is armed. |
| Client.AttemptsBounded | scripts/libs/Bouyomi.js:198-205 | No connection step takes the attempt count past five. |
| Client.QueueCommand | scripts/libs/Bouyomi.js:247-255 | The command goes last. The queue never exceeds ten. On overflow only the oldest entry goes. |
| Client.BaseMessage | scripts/libs/Bouyomi.js:300-303 | The client's own properties are exactly `commandType`, `time` and `messageId`, in that order and with the given values. |
| Client.ComposePrecedence | scripts/libs/Bouyomi.js:300-304 | Each message property comes from `fields` if present there, else from the config's own properties, else from the client's own three. |
| Client.NoDefaultPort | scripts/libs/Bouyomi.js:73-77 | Without a `port` in the config's own properties or the fields, the message has no port, and the relay answers it with the missing-port error without fetching. |
| Client.SendCommand | scripts/libs/Bouyomi.js:293-314 | Not connected: it throws and posts nothing. Post works: it posts the composed message and records the time. Post throws: it disconnects, schedules a reconnect and rethrows. The queue is never touched. |
| Client.Drain | scripts/libs/Bouyomi.js:272-284 | What stays queued after the loop is exactly the commands not posted, in order. The loop never throws. When a command is left, the client is disconnected and a reconnect is scheduled. |
| Client.DrainInOrder | scripts/libs/Bouyomi.js:272-277 | The queue is posted in FIFO order. The j-th post carries the j-th queued command with the client's config. |
| Client.DrainStopsAtFailure | scripts/libs/Bouyomi.js:278-283 | Within the drain taken as one step, the loop stops early only at a failed post. The failed command then heads the queue and the client is disconnected. |
| Client.DrainKeepsLink | scripts/libs/Bouyomi.js:272-277 | A loop that sends everything leaves the connection state as it was. |
| Client.DrainAll | scripts/libs/Bouyomi.js:272-277 | When every post works, the whole queue is sent. |
| Client.ProcessCommandQueue | scripts/libs/Bouyomi.js:260-288 | Nothing happens when disconnected or already draining. Otherwise the queue drains in FIFO order, the unsent rest stays, and `isProcessingQueue` ends false. When the drain stops at a failed post, the client is disconnected and a reconnect is scheduled. |
| Client.OnConnectionEstablished | scripts/libs/Bouyomi.js:154-162 | The reply marks the client connected, with no attempts and no pending reconnect, then drains the queue in order. |
| Client.Command | scripts/libs/Bouyomi.js:320-337 | No connection: the command is queued, and the link is what the connection attempt left. A send that works posts it directly and leaves the link alone. A send that throws queues the command, disconnects, schedules a reconnect and rethrows. |
| Client.CommandAfterGiveUp | scripts/libs/Bouyomi.js:193-202 | After five failed reconnects, a command that cannot connect is only queued. No attempt is counted, no timer is armed, and no reconnect is pending. |
| Client.SpeakFields | scripts/libs/Bouyomi.js:342 | `{ text, ...config }`: `text` is the spoken text unless the config has its own. Every other key is the config's. |
| Client.CommandKeepsValid | scripts/libs/Bouyomi.js:320-337 | `command` keeps the queue at ten or fewer and the attempts at five or fewer. |
| Client.DrainKeepsValid | scripts/libs/Bouyomi.js:260-288 | Draining and the connection handshake keep those bounds and leave the processing flag down. |
| Client.QueuedInOrder | scripts/libs/Bouyomi.js:320-327 | Commands issued while offline wait in the order they were issued. |
| Client.DirectSendOvertakesQueue | scripts/libs/Bouyomi.js:329-331 | A connected `command` posts its own message at once and leaves older queued commands waiting. |
| Facade.ActiveClient | scripts/libs/Bouyomi.js:13-22 | `"BOUYOMI"` selects the bridge client and `"NATIVE"` the speech client. Any other value is a TypeError naming the value. |
| Facade.ChangeWritesOneField | scripts/libs/Bouyomi.js:33-43 | A storage change applies only the first present key, in the order type, bridge config, speech config. Everything else is unchanged. |
| Facade.ServiceChangeIgnored | scripts/libs/Bouyomi.js:33-43 | A change to a per-service key leaves the facade unchanged. |
| Facade.TypeChangeShadowsConfig | scripts/libs/Bouyomi.js:39-41 | A change that switches the type and edits the config in one go only switches the type. |
| Facade.Dispatch | scripts/libs/Bouyomi.js:49-52 | An unknown type throws and touches nothing. The speech client leaves the bridge client alone. No call changes the type or the configs. |
| Facade.SpeakPostsTalk | scripts/libs/Bouyomi.js:49 | Through the bridge client and a connection, when the config has no own `text`, `speak` posts one `talk` command whose `text` is the message. |
| Facade.OfflineCallsQueue | scripts/libs/Bouyomi.js:50-52 | Offline, `pause`, `resume` and `skip` queue their own command type. |
| Facade.SwitchToNative | scripts/libs/Bouyomi.js:39 | After the type is switched to `"NATIVE"` through storage, `speak` no longer reaches the bridge client. |
| Facade.UnknownTypeThrows | scripts/libs/Bouyomi.js:20 | With an unacceptable type, every call throws the TypeError and nothing is queued or sent. |
| SocketPayload.SplitPayload | modules/YouTube-Live.js:16-22 | Splitting the payload on `<bouyomi>` gives the five rendered fields, message last. This holds when the settings render without `<` and the message has no delimiter. |
| SocketPayload.DecodePayload | modules/YouTube-Live.js:16-22 | With numeric or missing settings, the receiver reads back speed, pitch, volume and type, and the message. Missing speed, pitch and volume read -1 and a missing type reads 0. |
| SocketPayload.DefaultPayload | modules/YouTube-Live.js:16-22 | An empty config yields `-1<bouyomi>-1<bouyomi>-1<bouyomi>0<bouyomi>` followed by the message. |
| SocketPayload.PresentSettingVerbatim | modules/YouTube-Live.js:17 | A present speed, whatever its value, starts the payload verbatim. |
| StorageKeys.ServiceKey | scripts/libs/variables.js:37 | A service key is `services_` followed by the service id. |
| StorageKeys.ServiceKeyRoundTrip | scripts/libs/variables.js:37 | The service id can be read back from its key. |
| StorageKeys.ServiceKeyInjective | scripts/libs/variables.js:37 | Two services share a key exactly when they are the same service. |
| StorageKeys.ServiceKeyNotFixed | scripts/libs/variables.js:30-37 | No service key equals one of the four fixed keys. |
| StorageKeys.FixedKeysDistinct | scripts/libs/variables.js:30-33 | The four fixed keys are pairwise distinct. |

## Left out

- Web Locks: mutual exclusion and waiting are concurrency. The model records the lock name each request runs under, and treats the request as running at once.
- The connection handler's "already running" branch (`scripts/back/service-worker.js:215-218`): its inner `catch` absorbs every failure of the locked callback, so the branch is only reached if posting the error itself fails.
- `fetch`, `response.json()` and `JSON.stringify`: foreign calls. The engine is a function from URL to reply or error message, and the serialiser is an opaque function.
- Storage failures: the `catch` fallbacks of the ledger functions, and `chrome.storage` I/O itself. Storage is the stored list.
- Concurrency: interleavings of two handlers reading and writing the ledger between their awaits are not modelled; each handler runs to completion.
- Timers and liveness plumbing: the keep-alive alarms, auto-reconnect intervals, `ensureServiceWorkerActive`, the client's 30-second service-worker monitor, and the 50 ms pacing between drained commands. These are host scheduling; the reconnect timer is kept only as the delay it is armed with.
- Client.ProcessCommandQueue: the drain runs as one uninterrupted step, although the source awaits each `sendCommand` and a 50 ms timeout between sends. Other handlers can run in those pauses and the model does not follow them: an `onDisconnect` there makes the next send throw "not connected", so the loop can stop without a failed post; a command issued offline then joins the queue being drained; and a second call meets `isProcessingQueue` set, a branch the model states but no modelled step reaches.
- Client.ScheduleReconnect: in the source, the timer is armed only after an awaited service-worker ping. The model arms it in the same step, and ignores the outcome of that first ping, which the source only logs.
- `Date.now`, `Math.random` and the ids built from them: parameters.
- The Chrome runtime's treatment of the async `onMessage` listener's returned promise: the model reports the value the handler itself returns.
- `Bouyomi.NativeClient`, the speech-synthesis client: browser speech API and floating-point settings. The facade carries only its config value, and a call routed to it has no modelled effect.
- Facade.OnStorageChange: a new bridge config that is not an object is taken as having no own properties. That is what `Object.assign` does with `null`, `undefined`, numbers and booleans; the model does not follow it for strings, whose characters it would copy.
- The service matching of `webNavigation`, the DOM observers and chat sanitising of the content scripts, and the WebSocket connection itself: DOM, regex and transport glue. Only the payload string is modelled.
- JsValues.Put: property order follows insertion order for every key. JavaScript lists array-index keys such as `"0"` or `"12"` first, in ascending order. This affects `Object.assign`, rest destructuring, `Object.entries` (the query order) and `JSON.stringify` (the hash input), and the model does not follow it for such keys.
- Ledger.Dedup: ids are compared structurally. `Set.has` uses SameValueZero, under which an object id read back from storage never equals the one being checked. The lock names and the ids the client sends are strings, for which the two comparisons agree.
- Numbers are integers: non-integral or non-finite settings, integers of magnitude 10^21 and above (which `String` renders in exponent form), and the loss of exactness above 2^53 are not modelled.
- UriEncoding.EncodeURIComponent: strings are sequences of Unicode scalar values, so the `URIError` that lone surrogates raise is not modelled.
- Fingerprint.SimpleHash: the input is a sequence of UTF-16 code units, the output of the opaque serialiser; its injectivity is not assumed.

=== FILE: client.dfy ===
/** `Bouyomi.Client`, the page-side producer: a bounded FIFO of commands waiting
    for a connection, the reconnect bookkeeping with exponential backoff, and the
    message it posts to the service worker. Every asynchronous step of the class
    is one step function over the state record; what the browser decides (does
    `runtime.connect` succeed, does `postMessage` throw, is the service worker
    answering, the clock and the random message id) comes in as a parameter. */
module Client {

  import opened Wrappers
  import opened JsValues
  import Numerals
  import Relay

  const MaxReconnectAttempts: nat := 5
  const ReconnectDelay: nat := 1000
  const MaxQueue: nat := 10

  /** `Client.CommandType`. */
  const Speak: string := "talk"
  const Pause: string := "pause"
  const Resume: string := "resume"
  const Skip: string := "skip"

  /** The connection bookkeeping fields. `hasPort` is `this.port` being set;
      `reconnectTimer` is the delay of the reconnect timeout still to fire. */
  datatype Link = Link(
    hasPort: bool,
    isConnected: bool,
    reconnectAttempts: nat,
    isReconnecting: bool,
    reconnectTimer: Option<nat>)

  /** A command waiting for the connection: `{ commandType, fields, timestamp }`. */
  datatype QueuedCommand = QueuedCommand(commandType: string, fields: Obj, timestamp: int)

  /** One client. `config` holds the config's OWN properties only: the defaults
      (`speed`, `pitch`, `volume`, `type`, `port: 50080`) sit on its prototype
      and are never copied anywhere. */
  datatype ClientState = ClientState(
    config: Obj,
    link: Link,
    queue: seq<QueuedCommand>,
    isProcessingQueue: bool,
    lastCommandTime: int)

  /** The guard `this.isConnected && this.port` used before every send. */
  predicate Connected(l: Link) {
    l.isConnected && l.hasPort
  }

  /** The state every step below keeps. */
  predicate Valid(s: ClientState) {
    s.link.reconnectAttempts <= MaxReconnectAttempts && |s.queue| <= MaxQueue && !s.isProcessingQueue
  }

  // ---- Reconnection ----

  function Pow2(n: nat): (p: nat)
    ensures p >= 1
  {
    Numerals.Pow(2, n)
  }

  /** The backoff before reconnect attempt `n`: `reconnectDelay * 2^(n-1)`. */
  function Backoff(n: nat): nat
    requires n >= 1
  {
    ReconnectDelay * Pow2(n - 1)
  }

  /** `scheduleReconnect`: nothing while a reconnect is pending; giving up (and
      clearing the flag) once five attempts were made; otherwise one more attempt
      and a timeout of the backoff for it. */
  function ScheduleReconnect(l: Link): (r: Link)
    ensures l.isReconnecting ==> r == l
    ensures !l.isReconnecting && l.reconnectAttempts >= MaxReconnectAttempts ==>
      r == l.(isReconnecting := false)
    ensures !l.isReconnecting && l.reconnectAttempts < MaxReconnectAttempts ==>
      r.reconnectAttempts == l.reconnectAttempts + 1 && r.isReconnecting &&
      r.reconnectTimer == Some(Backoff(r.reconnectAttempts))
    ensures r.reconnectAttempts <= MaxReconnectAttempts || r.reconnectAttempts == l.reconnectAttempts
    ensures r.isConnected == l.isConnected && r.hasPort == l.hasPort
  {
    if l.isReconnecting then l
    else if l.reconnectAttempts >= MaxReconnectAttempts then l.(isReconnecting := false)
    else
      var n := l.reconnectAttempts + 1;
      l.(isReconnecting := true, reconnectAttempts := n, reconnectTimer := Some(Backoff(n)))
  }

  /** `initConnection`: skipped while a reconnect is pending; a successful
      `runtime.connect` marks the client connected; a throwing one marks it
      disconnected and schedules a reconnect. */
  function InitConnection(l: Link, connectOk: bool): (r: Link)
    ensures l.isReconnecting ==> r == l
    ensures !l.isReconnecting && connectOk ==>
      r == l.(hasPort := true, isConnected := true, isReconnecting := false)
    ensures !l.isReconnecting && !connectOk ==>
      !r.isConnected && r.hasPort == l.hasPort &&
      r.reconnectAttempts == (if l.reconnectAttempts < MaxReconnectAttempts
                              then l.reconnectAttempts + 1 else l.reconnectAttempts)
    ensures !l.isReconnecting && !connectOk && l.reconnectAttempts < MaxReconnectAttempts ==>
      r.isReconnecting && r.reconnectTimer == Some(Backoff(r.reconnectAttempts))
    ensures !l.isReconnecting && !connectOk && l.reconnectAttempts >= MaxReconnectAttempts ==>
      !r.isReconnecting && r.reconnectTimer == l.reconnectTimer
  {
    if l.isReconnecting then l
    else if connectOk then l.(hasPort := true, isConnected := true, isReconnecting := false)
    else ScheduleReconnect(l.(isConnected := false))
  }

  /** The port's `onDisconnect`: disconnected, and a reconnect only when the
      disconnect came with `runtime.lastError`. */
  function OnDisconnect(l: Link, lastError: bool): (r: Link)
    ensures !r.isConnected && r.hasPort == l.hasPort
    ensures !lastError ==> r == l.(isConnected := false)
    ensures lastError && !l.isReconnecting && l.reconnectAttempts < MaxReconnectAttempts ==>
      r.reconnectAttempts == l.reconnectAttempts + 1 && r.reconnectTimer.Some?
  {
    var d := l.(isConnected := false);
    if lastError then ScheduleReconnect(d) else d
  }

  /** The reconnect timeout firing: the pending flag is cleared, and if the
      service worker still answers, the connection is initialised again. */
  function ReconnectTimerFires(l: Link, swStillActive: bool, connectOk: bool): (r: Link)
    ensures l.reconnectTimer.None? ==> r == l
    ensures l.reconnectTimer.Some? && !swStillActive ==>
      r == l.(isReconnecting := false, reconnectTimer := None)
    ensures l.reconnectTimer.Some? && swStillActive && connectOk ==>
      Connected(r) && !r.isReconnecting && r.reconnectAttempts == l.reconnectAttempts
  {
    if l.reconnectTimer.None? then l
    else
      var t := l.(isReconnecting := false, reconnectTimer := None);
      if swStillActive then InitConnection(t, connectOk) else t
  }

  /** `ensureConnection`: re-initialise unless connected with a port. */
  function EnsureConnection(l: Link, connectOk: bool): (r: Link)
    ensures Connected(l) ==> r == l
    ensures !Connected(l) && !l.isReconnecting && connectOk ==> Connected(r)
    ensures !Connected(l) && !connectOk ==> !Connected(r)
    ensures !Connected(l) && l.isReconnecting ==> r == l
    ensures !Connected(l) && !l.isReconnecting && !connectOk ==>
      r == ScheduleReconnect(l.(isConnected := false))
  {
    if !l.isConnected || !l.hasPort then InitConnection(l, connectOk) else l
  }

  /** Every attempt waits twice as long as the one before: 1, 2, 4, 8 and 16
      seconds. */
  lemma BackoffDelays()
    ensures Backoff(1) == 1000 && Backoff(2) == 2000 && Backoff(3) == 4000
    ensures Backoff(4) == 8000 && Backoff(5) == 16000
    ensures forall n :: 1 <= n < MaxReconnectAttempts ==> Backoff(n + 1) == 2 * Backoff(n)
  {
    assert Pow2(0) == 1;
    assert Pow2(1) == 2;
    assert Pow2(2) == 4;
    assert Pow2(3) == 8;
    assert Pow2(4) == 16;
  }

  /** `k` rounds of the timer firing, the service worker answering and
      `runtime.connect` throwing. */
  function FailedRounds(l: Link, k: nat): Link
    decreases k
  {
    if k == 0 then l else FailedRounds(ReconnectTimerFires(l, true, false), k - 1)
  }

  /** While every reconnect fails, each round makes exactly one more attempt,
      waiting twice as long, until the fifth; the round after that schedules
      nothing and the client gives up. */
  lemma {:induction false} GivesUpAfterFive(l: Link, k: nat)
    requires l.reconnectAttempts <= MaxReconnectAttempts
    requires l.reconnectTimer.Some? && l.isReconnecting
    ensures FailedRounds(l, k).reconnectAttempts
      == if l.reconnectAttempts + k <= MaxReconnectAttempts then l.reconnectAttempts + k else MaxReconnectAttempts
    ensures 0 < k && l.reconnectAttempts + k <= MaxReconnectAttempts ==>
      FailedRounds(l, k).reconnectTimer == Some(Backoff(l.reconnectAttempts + k))
    ensures l.reconnectAttempts + k > MaxReconnectAttempts ==>
      FailedRounds(l, k).reconnectTimer.None? && !FailedRounds(l, k).isReconnecting
    decreases k
  {
    if k > 0 {
      var t := ReconnectTimerFires(l, true, false);
      if l.reconnectAttempts < MaxReconnectAttempts {
        GivesUpAfterFive(t, k - 1);
      } else {
        Settled(t, k - 1);
      }
    }
  }

  /** With no timer pending, failing rounds change nothing. */
  lemma {:induction false} Settled(l: Link, k: nat)
    requires l.reconnectTimer.None?
    ensures FailedRounds(l, k) == l
    decreases k
  {
    if k > 0 {
      Settled(ReconnectTimerFires(l, true, false), k - 1);
    }
  }

  /** The connection steps never take the attempt count past five. */
  lemma AttemptsBounded(l: Link, connectOk: bool, lastError: bool, swStillActive: bool)
    requires l.reconnectAttempts <= MaxReconnectAttempts
    ensures ScheduleReconnect(l).reconnectAttempts <= MaxReconnectAttempts
    ensures InitConnection(l, connectOk).reconnectAttempts <= MaxReconnectAttempts
    ensures OnDisconnect(l, lastError).reconnectAttempts <= MaxReconnectAttempts
    ensures ReconnectTimerFires(l, swStillActive, connectOk).reconnectAttempts <= MaxReconnectAttempts
    ensures EnsureConnection(l, connectOk).reconnectAttempts <= MaxReconnectAttempts
  {
  }

  // ---- The command queue ----

  /** `queueCommand`: the command goes last; past ten entries the oldest one is
      dropped. */
  function QueueCommand(q: seq<QueuedCommand>, c: QueuedCommand): (r: seq<QueuedCommand>)
    ensures |r| >= 1 && r[|r| - 1] == c
    ensures |q| < MaxQueue ==> r == q + [c]
    ensures |q| >= MaxQueue ==> r == q[1..] + [c]
    ensures |q| <= MaxQueue ==> |r| <= MaxQueue
  {
    var pushed := q + [c];
    if |pushed| > MaxQueue then
      assert pushed[1..] == q[1..] + [c];
      pushed[1..]
    else pushed
  }

  /** The browser's side of one send: the clock, the generated message id, and
      whether `postMessage` returns normally. */
  datatype SendEnv = SendEnv(now: int, messageId: string, postOk: bool)

  function BaseValue(commandType: string, env: SendEnv, k: string): JsValue {
    if k == "commandType" then Str(commandType)
    else if k == "time" then Num(env.now)
    else if k == "messageId" then Str(env.messageId)
    else Undefined
  }

  /** The three properties the client sets itself, `{ commandType, time, messageId }`. */
  function BaseMessage(commandType: string, env: SendEnv): (b: Obj)
    ensures Keys(b) == ["commandType", "time", "messageId"]
    ensures DistinctKeys(b)
    ensures forall k :: Get(b, k) == BaseValue(commandType, env, k)
  {
    var b3: Obj := [Entry("messageId", Str(env.messageId))];
    var b2: Obj := [Entry("time", Num(env.now))] + b3;
    var b: Obj := [Entry("commandType", Str(commandType))] + b2;
    assert b2[1..] == b3 && b[1..] == b2 && b3[1..] == [];
    assert Keys(b3) == ["messageId"] && DistinctKeys(b3);
    assert Keys(b2) == ["time", "messageId"] && DistinctKeys(b2);
    forall k ensures Get(b, k) == BaseValue(commandType, env, k) {
      assert Get(b3, k) == if k == "messageId" then Str(env.messageId) else Get(b3[1..], k);
      assert Get(b2, k) == if k == "time" then Num(env.now) else Get(b3, k);
    }
    b
  }

  /** `Object.assign({ commandType, time, messageId }, this.config, fields)`. */
  function ComposeMessage(commandType: string, env: SendEnv, config: Obj, fields: Obj): (m: Obj)
    ensures DistinctKeys(m)
  {
    var b := BaseMessage(commandType, env);
    AssignSpec(b, config);
    AssignSpec(Assign(b, config), fields);
    Assign(Assign(b, config), fields)
  }

  /** One `port.postMessage(message)`: what the message is made of; the object
      posted is `ComposeMessage` of these. */
  datatype Post = Post(commandType: string, env: SendEnv, config: Obj, fields: Obj)

  /** A step's result: the state after it, the posts made, and whether it threw. */
  datatype Outcome = Outcome(state: ClientState, posted: seq<Post>, threw: bool)

  /** `sendCommand`: throws without posting when not connected; otherwise posts
      the composed message and records the time, or, when posting throws, marks
      the client disconnected, schedules a reconnect and rethrows. */
  function SendCommand(s: ClientState, commandType: string, fields: Obj, env: SendEnv): (o: Outcome)
    ensures !Connected(s.link) ==> o == Outcome(s, [], true)
    ensures Connected(s.link) && env.postOk ==>
      o.posted == [Post(commandType, env, s.config, fields)] && !o.threw &&
      o.state == s.(lastCommandTime := env.now)
    ensures Connected(s.link) && !env.postOk ==>
      o.threw && o.posted == [] && o.state == s.(link := ScheduleReconnect(s.link.(isConnected := false)))
    ensures o.threw <==> o.posted == []
    ensures o.state.queue == s.queue && o.state.config == s.config
    ensures o.state.isProcessingQueue == s.isProcessingQueue
  {
    if !s.link.isConnected || !s.link.hasPort then Outcome(s, [], true)
    else if env.postOk then
      Outcome(s.(lastCommandTime := env.now), [Post(commandType, env, s.config, fields)], false)
    else Outcome(s.(link := ScheduleReconnect(s.link.(isConnected := false))), [], true)
  }

  /** The messages the queued commands become, in queue order, the `j`-th send
      seeing `envs(start + j)`. */
  predicate PostedInOrder(posted: seq<Post>, queue: seq<QueuedCommand>, config: Obj,
                          envs: nat -> SendEnv, start: nat)
  {
    |posted| <= |queue| &&
    forall j :: 0 <= j < |posted| ==>
      posted[j] == Post(queue[j].commandType, envs(start + j), config, queue[j].fields)
  }

  /** The `while` loop of `processCommandQueue`, from a connected state: shift a
      command, send it; on a throw put it back in front and stop. What is left
      queued is exactly what was not posted. */
  function Drain(s: ClientState, envs: nat -> SendEnv, start: nat): (o: Outcome)
    requires Connected(s.link)
    ensures |o.posted| <= |s.queue| && o.state.queue == s.queue[|o.posted|..]
    ensures o.state.config == s.config && o.state.isProcessingQueue == s.isProcessingQueue
    ensures |o.state.queue| > 0 ==> o.state.link == ScheduleReconnect(s.link.(isConnected := false))
    ensures !o.threw
    decreases |s.queue|
  {
    if |s.queue| == 0 then Outcome(s, [], false)
    else
      var cmd := s.queue[0];
      var sent := SendCommand(s.(queue := s.queue[1..]), cmd.commandType, cmd.fields, envs(start));
      if sent.threw then
        assert [cmd] + sent.state.queue == s.queue;
        Outcome(sent.state.(queue := [cmd] + sent.state.queue), [], false)
      else
        var rest := Drain(sent.state, envs, start + 1);
        assert s.queue[1..][|rest.posted|..] == s.queue[1 + |rest.posted|..];
        Outcome(rest.state, sent.posted + rest.posted, false)
  }

  lemma PostedCons(msg: Post, rest: seq<Post>, queue: seq<QueuedCommand>, config: Obj,
                   envs: nat -> SendEnv, start: nat)
    requires |queue| > 0
    requires msg == Post(queue[0].commandType, envs(start), config, queue[0].fields)
    requires PostedInOrder(rest, queue[1..], config, envs, start + 1)
    ensures PostedInOrder([msg] + rest, queue, config, envs, start)
  {
    var p := [msg] + rest;
    forall j | 0 <= j < |p|
      ensures p[j] == Post(queue[j].commandType, envs(start + j), config, queue[j].fields)
    {
      if j > 0 {
        assert p[j] == rest[j - 1];
        assert queue[1..][j - 1] == queue[j];
      }
    }
  }

  /** Draining posts the queued commands in FIFO order, each composed with the
      client's config and its own send's clock and id. */
  lemma {:induction false} DrainInOrder(s: ClientState, envs: nat -> SendEnv, start: nat)
    requires Connected(s.link)
    ensures PostedInOrder(Drain(s, envs, start).posted, s.queue, s.config, envs, start)
    decreases |s.queue|
  {
    if |s.queue| > 0 {
      var cmd := s.queue[0];
      var sent := SendCommand(s.(queue := s.queue[1..]), cmd.commandType, cmd.fields, envs(start));
      if !sent.threw {
        DrainInOrder(sent.state, envs, start + 1);
        var rest := Drain(sent.state, envs, start + 1);
        PostedCons(sent.posted[0], rest.posted, s.queue, s.config, envs, start);
        assert sent.posted + rest.posted == [sent.posted[0]] + rest.posted;
      }
    }
  }

  /** The `i`-th send's `postMessage` throws. */
  predicate PostFails(envs: nat -> SendEnv, i: nat) {
    !envs(i).postOk
  }

  /** Draining stops only at a failed post, and then the client is disconnected
      (the failed command heads what is left). */
  lemma {:induction false} DrainStopsAtFailure(s: ClientState, envs: nat -> SendEnv, start: nat)
    requires Connected(s.link)
    ensures var o := Drain(s, envs, start);
      |o.state.queue| > 0 ==> PostFails(envs, start + |o.posted|) && !o.state.link.isConnected
    decreases |s.queue|
  {
    if |s.queue| > 0 {
      var cmd := s.queue[0];
      var s1 := s.(queue := s.queue[1..]);
      var sent := SendCommand(s1, cmd.commandType, cmd.fields, envs(start));
      var o := Drain(s, envs, start);
      if sent.threw {
        assert s1.link == s.link;
        assert !envs(start).postOk;
        assert sent.state.link == ScheduleReconnect(s1.link.(isConnected := false));
        assert o.state.link == sent.state.link && o.posted == [];
        assert PostFails(envs, start + |o.posted|);
      } else {
        DrainStopsAtFailure(sent.state, envs, start + 1);
        var rest := Drain(sent.state, envs, start + 1);
        assert o == Outcome(rest.state, sent.posted + rest.posted, false);
        assert |rest.state.queue| > 0 ==> PostFails(envs, (start + 1) + |rest.posted|);
        assert start + |o.posted| == (start + 1) + |rest.posted|;
        assert o.state == rest.state;
        assert |o.state.queue| > 0 ==> PostFails(envs, start + |o.posted|);
      }
    }
  }

  /** When everything was sent, the link is as it was. */
  lemma {:induction false} DrainKeepsLink(s: ClientState, envs: nat -> SendEnv, start: nat)
    requires Connected(s.link)
    ensures |Drain(s, envs, start).state.queue| == 0 ==> Drain(s, envs, start).state.link == s.link
    decreases |s.queue|
  {
    if |s.queue| > 0 {
      var cmd := s.queue[0];
      var sent := SendCommand(s.(queue := s.queue[1..]), cmd.commandType, cmd.fields, envs(start));
      if !sent.threw {
        DrainKeepsLink(sent.state, envs, start + 1);
      }
    }
  }

  /** Draining never takes the attempt count past five. */
  lemma {:induction false} DrainAttemptsBounded(s: ClientState, envs: nat -> SendEnv, start: nat)
    requires Connected(s.link)
    ensures s.link.reconnectAttempts <= MaxReconnectAttempts ==>
      Drain(s, envs, start).state.link.reconnectAttempts <= MaxReconnectAttempts
    decreases |s.queue|
  {
    if |s.queue| > 0 {
      var cmd := s.queue[0];
      var s1 := s.(queue := s.queue[1..]);
      var sent := SendCommand(s1, cmd.commandType, cmd.fields, envs(start));
      if sent.threw {
        if s.link.reconnectAttempts <= MaxReconnectAttempts {
          AttemptsBounded(s1.link.(isConnected := false), false, false, false);
        }
      } else {
        DrainAttemptsBounded(sent.state, envs, start + 1);
      }
    }
  }

  /** When every post succeeds, draining sends the whole queue. */
  lemma {:induction false} DrainAll(s: ClientState, envs: nat -> SendEnv, start: nat)
    requires Connected(s.link)
    requires forall i :: start <= i < start + |s.queue| ==> envs(i).postOk
    ensures |Drain(s, envs, start).posted| == |s.queue|
    decreases |s.queue|
  {
    if |s.queue| > 0 {
      var cmd := s.queue[0];
      var sent := SendCommand(s.(queue := s.queue[1..]), cmd.commandType, cmd.fields, envs(start));
      assert envs(start).postOk;
      DrainAll(sent.state, envs, start + 1);
    }
  }

  /** `processCommandQueue`: nothing unless connected and not already draining;
      otherwise drain with the flag raised, and lower it afterwards. */
  function ProcessCommandQueue(s: ClientState, envs: nat -> SendEnv, start: nat): (o: Outcome)
    ensures !Connected(s.link) || s.isProcessingQueue ==> o == Outcome(s, [], false)
    ensures Connected(s.link) && !s.isProcessingQueue ==>
      PostedInOrder(o.posted, s.queue, s.config, envs, start) &&
      o.state.queue == s.queue[|o.posted|..] && !o.state.isProcessingQueue
    ensures |o.state.queue| == 0 ==> o.state.link == s.link
    ensures Connected(s.link) && !s.isProcessingQueue && |o.state.queue| > 0 ==>
      o.state.link == ScheduleReconnect(s.link.(isConnected := false))
    ensures !o.threw && o.state.config == s.config
    ensures s.link.reconnectAttempts <= MaxReconnectAttempts ==>
      o.state.link.reconnectAttempts <= MaxReconnectAttempts
  {
    if !s.link.isConnected || !s.link.hasPort || s.isProcessingQueue then Outcome(s, [], false)
    else
      var raised := s.(isProcessingQueue := true);
      var d := Drain(raised, envs, start);
      DrainInOrder(raised, envs, start);
      DrainKeepsLink(raised, envs, start);
      DrainAttemptsBounded(raised, envs, start);
      Outcome(d.state.(isProcessingQueue := false), d.posted, false)
  }

  /** The port's message listener for `connection_established`: connected,
      attempts reset, no reconnect pending, then the queue drained. */
  function OnConnectionEstablished(s: ClientState, envs: nat -> SendEnv, start: nat): (o: Outcome)
    ensures s.link.hasPort && !s.isProcessingQueue ==>
      PostedInOrder(o.posted, s.queue, s.config, envs, start) &&
      o.state.queue == s.queue[|o.posted|..]
    ensures s.link.hasPort && |o.state.queue| == 0 ==>
      Connected(o.state.link) && o.state.link.reconnectAttempts == 0 && !o.state.link.isReconnecting
    ensures !s.link.hasPort || s.isProcessingQueue ==> o.posted == [] && o.state.queue == s.queue
  {
    var l := s.link.(isConnected := true, reconnectAttempts := 0, isReconnecting := false);
    ProcessCommandQueue(s.(link := l), envs, start)
  }

  /** `command`: make sure of the connection; without one, queue the command;
      with one, send it, and if the send throws, queue it and rethrow. */
  function Command(s: ClientState, commandType: string, fields: Obj, connectOk: bool, env: SendEnv)
    : (o: Outcome)
    ensures var l := EnsureConnection(s.link, connectOk);
      !Connected(l) ==>
        o.state.queue == QueueCommand(s.queue, QueuedCommand(commandType, fields, env.now)) &&
        o.posted == [] && !o.threw && o.state.link == l
    ensures var l := EnsureConnection(s.link, connectOk);
      Connected(l) && env.postOk ==>
        o.posted == [Post(commandType, env, s.config, fields)] && !o.threw && o.state.queue == s.queue &&
        o.state.link == l
    ensures var l := EnsureConnection(s.link, connectOk);
      Connected(l) && !env.postOk ==>
        o.state.link == ScheduleReconnect(l.(isConnected := false))
    ensures var l := EnsureConnection(s.link, connectOk);
      Connected(l) && !env.postOk ==>
        o.posted == [] && o.threw && !o.state.link.isConnected &&
        o.state.queue == QueueCommand(s.queue, QueuedCommand(commandType, fields, env.now))
    ensures o.state.config == s.config && o.state.isProcessingQueue == s.isProcessingQueue
  {
    var e := s.(link := EnsureConnection(s.link, connectOk));
    var cmd := QueuedCommand(commandType, fields, env.now);
    if !e.link.isConnected || !e.link.hasPort then
      Outcome(e.(queue := QueueCommand(e.queue, cmd)), [], false)
    else
      var sent := SendCommand(e, commandType, fields, env);
      if sent.threw then Outcome(sent.state.(queue := QueueCommand(sent.state.queue, cmd)), [], true)
      else sent
  }

  /** `speak(text, config)`: the fields are `{ text, ...config }`. */
  function SpeakFields(text: string, config: Obj): (f: Obj)
    ensures DistinctKeys(config) ==>
      Get(f, "text") == (if "text" in Keys(config) then Get(config, "text") else Str(text))
    ensures DistinctKeys(config) ==> forall k :: k != "text" ==> Get(f, k) == Get(config, k)
  {
    AssignSpec([Entry("text", Str(text))], config);
    Assign([Entry("text", Str(text))], config)
  }

  // ---- Properties across steps ----

  /** `command` keeps a valid state valid: the queue never passes ten. */
  lemma CommandKeepsValid(s: ClientState, commandType: string, fields: Obj, connectOk: bool, env: SendEnv)
    requires Valid(s)
    ensures Valid(Command(s, commandType, fields, connectOk, env).state)
  {
    var l := EnsureConnection(s.link, connectOk);
    AttemptsBounded(s.link, connectOk, false, false);
    if Connected(l) {
      AttemptsBounded(l.(isConnected := false), connectOk, false, false);
    }
  }

  /** Draining, and `connection_established`, keep a valid state valid. */
  lemma DrainKeepsValid(s: ClientState, envs: nat -> SendEnv, start: nat)
    requires Valid(s)
    ensures Valid(ProcessCommandQueue(s, envs, start).state)
    ensures Valid(OnConnectionEstablished(s, envs, start).state)
  {
  }

  /** Which message fields win: `fields` over the config's own properties over
      the three the client sets itself. */
  lemma ComposePrecedence(commandType: string, env: SendEnv, config: Obj, fields: Obj, k: string)
    requires DistinctKeys(config) && DistinctKeys(fields)
    ensures Get(ComposeMessage(commandType, env, config, fields), k) ==
      if k in Keys(fields) then Get(fields, k)
      else if k in Keys(config) then Get(config, k)
      else BaseValue(commandType, env, k)
  {
    var b := BaseMessage(commandType, env);
    AssignSpec(b, config);
    AssignSpec(Assign(b, config), fields);
  }

  /** The default port is never sent: unless the user's config or the fields set
      `port` themselves, the message has none, and the service worker answers it
      with the missing-port error instead of asking the engine. */
  lemma NoDefaultPort(commandType: string, env: SendEnv, config: Obj, fields: Obj,
                      ledger: Relay.Store, ser: Relay.Fingerprint.Serialiser, engine: Relay.Engine)
    requires DistinctKeys(config) && DistinctKeys(fields)
    requires "port" !in Keys(config) && "port" !in Keys(fields)
    ensures Get(ComposeMessage(commandType, env, config, fields), "port") == Undefined
    ensures Relay.OnPortMessage(ledger, ComposeMessage(commandType, env, config, fields), ser, engine)
      == Relay.PortOutcome(Some(Relay.Failure(Relay.ErrNoPort)), ledger, None)
  {
    ComposePrecedence(commandType, env, config, fields, "port");
  }

  /** Commands issued while no connection can be made wait in the queue in the
      order they were issued. */
  lemma QueuedInOrder(s: ClientState, c1: string, f1: Obj, c2: string, f2: Obj, e1: SendEnv, e2: SendEnv)
    requires !Connected(s.link) && |s.queue| + 2 <= MaxQueue
    ensures var o1 := Command(s, c1, f1, false, e1);
      Command(o1.state, c2, f2, false, e2).state.queue
        == s.queue + [QueuedCommand(c1, f1, e1.now), QueuedCommand(c2, f2, e2.now)]
  {
    var o1 := Command(s, c1, f1, false, e1);
    assert !Connected(EnsureConnection(o1.state.link, false));
  }

  /** Once five reconnects have failed, a command that cannot connect is only
      queued: no attempt is counted, no timer is armed, and nothing is pending. */
  lemma CommandAfterGiveUp(s: ClientState, commandType: string, fields: Obj, env: SendEnv)
    requires !Connected(s.link) && !s.link.isReconnecting
    requires s.link.reconnectAttempts >= MaxReconnectAttempts
    ensures var o := Command(s, commandType, fields, false, env);
      && o.state.queue == QueueCommand(s.queue, QueuedCommand(commandType, fields, env.now))
      && o.posted == [] && !o.threw
      && o.state.link.reconnectAttempts == s.link.reconnectAttempts
      && o.state.link.reconnectTimer == s.link.reconnectTimer
      && !o.state.link.isReconnecting && !o.state.link.isConnected
  {
  }

  /** A command sent directly overtakes whatever is still queued: the direct
      send neither drains nor reorders the queue. */
  lemma DirectSendOvertakesQueue(s: ClientState, commandType: string, fields: Obj, env: SendEnv)
    requires Connected(s.link) && env.postOk && |s.queue| > 0
    ensures Command(s, commandType, fields, true, env).posted
      == [Post(commandType, env, s.config, fields)]
    ensures Command(s, commandType, fields, true, env).state.queue == s.queue
  {
  }
}

=== FILE: facade.dfy ===
/** The `Bouyomi` facade the content scripts talk to: which of its two clients is
    active, how a storage change reconfigures it, and how `speak`, `pause`,
    `resume` and `skip` are handed to the active client. The speech-synthesis
    client is not modelled; only its configuration value is carried along. */
module Facade {

  import opened Wrappers
  import opened JsValues
  import StorageKeys
  import Client

  /** `Bouyomi.ClientType`. */
  const TypeBouyomi: string := "BOUYOMI"
  const TypeNative: string := "NATIVE"

  datatype ClientKind = BouyomiClient | NativeClient

  /** The facade's fields: `clientType` can hold whatever a storage change
      wrote, so it is any value. */
  datatype Facade = Facade(clientType: JsValue, client: Client.ClientState, nativeConfig: JsValue)

  function TypeErrorText(clientType: JsValue): string {
    "A value of \"clientType\", \"" + ToStr(clientType) + "\" is not acceptable"
  }

  /** The `client` getter: a `switch` with strict equality on the two type
      names, and a `TypeError` for every other value. */
  function ActiveClient(clientType: JsValue): (r: Result<ClientKind, string>)
    ensures r == Ok(BouyomiClient) <==> clientType == Str(TypeBouyomi)
    ensures r == Ok(NativeClient) <==> clientType == Str(TypeNative)
    ensures r.Err? <==> clientType != Str(TypeBouyomi) && clientType != Str(TypeNative)
    ensures r.Err? ==> r.error == TypeErrorText(clientType)
  {
    if clientType == Str(TypeBouyomi) then Ok(BouyomiClient)
    else if clientType == Str(TypeNative) then Ok(NativeClient)
    else Err(TypeErrorText(clientType))
  }

  /** `change.newValue`: the property of a change record, `undefined` when the
      record is not an object. */
  function NewValue(change: JsValue): JsValue {
    if change.Object? then Get(change.entries, "newValue") else Undefined
  }

  /** The own properties `Object.assign` later copies out of a config value. */
  function ConfigEntries(v: JsValue): Obj {
    if v.Object? then v.entries else []
  }

  /** The `init` change listener: the first key present among the client type,
      the bridge client's config and the speech client's config is applied,
      and the others in the same change are dropped. */
  function OnStorageChange(f: Facade, store: Obj): (r: Facade)
  {
    var typeChange := Get(store, StorageKeys.BouyomiType);
    var configChange := Get(store, StorageKeys.BouyomiConfig);
    var nativeChange := Get(store, StorageKeys.NativeBouyomiConfig);
    if Truthy(typeChange) then f.(clientType := NewValue(typeChange))
    else if Truthy(configChange) then f.(client := f.client.(config := ConfigEntries(NewValue(configChange))))
    else if Truthy(nativeChange) then f.(nativeConfig := NewValue(nativeChange))
    else f
  }

  /** Which of the three facade fields a change writes, as a priority order. */
  datatype Applied = TypeApplied | ConfigApplied | NativeApplied | NothingApplied

  function FirstPresent(store: Obj): Applied {
    if Truthy(Get(store, StorageKeys.BouyomiType)) then TypeApplied
    else if Truthy(Get(store, StorageKeys.BouyomiConfig)) then ConfigApplied
    else if Truthy(Get(store, StorageKeys.NativeBouyomiConfig)) then NativeApplied
    else NothingApplied
  }

  /** Exactly one field at most changes, the one of the first key present; the
      other two, and the client's connection and queue, stay as they were. */
  lemma ChangeWritesOneField(f: Facade, store: Obj)
    ensures var r := OnStorageChange(f, store);
      && (FirstPresent(store) != TypeApplied ==> r.clientType == f.clientType)
      && (FirstPresent(store) != ConfigApplied ==> r.client == f.client)
      && (FirstPresent(store) != NativeApplied ==> r.nativeConfig == f.nativeConfig)
      && r.client.link == f.client.link && r.client.queue == f.client.queue
    ensures FirstPresent(store) == TypeApplied ==>
      OnStorageChange(f, store).clientType == NewValue(Get(store, StorageKeys.BouyomiType))
    ensures FirstPresent(store) == ConfigApplied ==>
      OnStorageChange(f, store).client.config
        == ConfigEntries(NewValue(Get(store, StorageKeys.BouyomiConfig)))
    ensures FirstPresent(store) == NativeApplied ==>
      OnStorageChange(f, store).nativeConfig
        == NewValue(Get(store, StorageKeys.NativeBouyomiConfig))
  {
  }

  /** A change touching none of the three keys, such as one to a per-service
      key, leaves the facade alone. */
  lemma ServiceChangeIgnored(f: Facade, service: string, change: JsValue)
    ensures OnStorageChange(f, [Entry(StorageKeys.ServiceKey(service), change)]) == f
  {
    StorageKeys.ServiceKeyNotFixed(service);
  }

  /** A change that switches the type and edits the config at once only
      switches the type: the config edit is lost. */
  lemma TypeChangeShadowsConfig(f: Facade, newType: JsValue, newConfig: JsValue)
    ensures var store := [
        Entry(StorageKeys.BouyomiConfig, Object([Entry("newValue", newConfig)])),
        Entry(StorageKeys.BouyomiType, Object([Entry("newValue", newType)]))];
      OnStorageChange(f, store) == f.(clientType := newType)
  {
    StorageKeys.FixedKeysDistinct();
    var typeChange := Object([Entry("newValue", newType)]);
    var store := [
        Entry(StorageKeys.BouyomiConfig, Object([Entry("newValue", newConfig)])),
        Entry(StorageKeys.BouyomiType, typeChange)];
    assert store[1..] == [Entry(StorageKeys.BouyomiType, typeChange)];
    assert Get(store, StorageKeys.BouyomiType) == typeChange;
  }

  /** What a facade call leads to: the new facade, what the bridge client
      posted, and the synchronous `TypeError` if the getter threw. A rejected
      promise from the bridge client is not seen by the facade, which does not
      await it. */
  datatype Step = Step(facade: Facade, posted: seq<Client.Post>, error: Option<string>)

  /** Hand one command to the active client. */
  function Dispatch(f: Facade, commandType: string, fields: Obj, connectOk: bool, env: Client.SendEnv)
    : (r: Step)
    ensures r.error.Some? <==> ActiveClient(f.clientType).Err?
    ensures r.error.Some? ==> r.facade == f && r.posted == []
    ensures ActiveClient(f.clientType) == Ok(NativeClient) ==> r == Step(f, [], None)
    ensures r.facade.clientType == f.clientType && r.facade.nativeConfig == f.nativeConfig
    ensures r.facade.client.config == f.client.config
  {
    match ActiveClient(f.clientType)
    case Err(e) => Step(f, [], Some(e))
    case Ok(NativeClient) => Step(f, [], None)
    case Ok(BouyomiClient) =>
      var o := Client.Command(f.client, commandType, fields, connectOk, env);
      Step(f.(client := o.state), o.posted, None)
  }

  /** `speak(message, config)`. */
  function Speak(f: Facade, message: string, config: Obj, connectOk: bool, env: Client.SendEnv): Step {
    Dispatch(f, Client.Speak, Client.SpeakFields(message, config), connectOk, env)
  }

  function Pause(f: Facade, connectOk: bool, env: Client.SendEnv): Step {
    Dispatch(f, Client.Pause, [], connectOk, env)
  }

  function Resume(f: Facade, connectOk: bool, env: Client.SendEnv): Step {
    Dispatch(f, Client.Resume, [], connectOk, env)
  }

  function Skip(f: Facade, connectOk: bool, env: Client.SendEnv): Step {
    Dispatch(f, Client.Skip, [], connectOk, env)
  }

  /** With the bridge client active and a connection, `speak` posts one message
      whose `text` is the spoken message (unless the config has its own `text`)
      and whose command type is `talk`; the queue is left as it was. */
  lemma SpeakPostsTalk(f: Facade, message: string, config: Obj, env: Client.SendEnv)
    requires f.clientType == Str(TypeBouyomi)
    requires Client.Connected(f.client.link) && env.postOk
    requires DistinctKeys(config) && "text" !in Keys(config)
    ensures var r := Speak(f, message, config, true, env);
      && r.error == None
      && |r.posted| == 1
      && r.posted[0].commandType == Client.Speak
      && Get(r.posted[0].fields, "text") == Str(message)
      && r.facade.client.queue == f.client.queue
  {
  }

  /** With the bridge client active and no connection to be had, each of the
      four calls queues its command with the matching command type. */
  lemma OfflineCallsQueue(f: Facade, env: Client.SendEnv)
    requires f.clientType == Str(TypeBouyomi)
    requires !Client.Connected(Client.EnsureConnection(f.client.link, false))
    ensures Pause(f, false, env).facade.client.queue
      == Client.QueueCommand(f.client.queue, Client.QueuedCommand(Client.Pause, [], env.now))
    ensures Resume(f, false, env).facade.client.queue
      == Client.QueueCommand(f.client.queue, Client.QueuedCommand(Client.Resume, [], env.now))
    ensures Skip(f, false, env).facade.client.queue
      == Client.QueueCommand(f.client.queue, Client.QueuedCommand(Client.Skip, [], env.now))
  {
  }

  /** Switching the type to the speech client through storage diverts every
      later call away from the bridge client, whose queue no longer grows. */
  lemma SwitchToNative(f: Facade, message: string, config: Obj, connectOk: bool, env: Client.SendEnv)
    ensures var g := OnStorageChange(f, [Entry(StorageKeys.BouyomiType,
        Object([Entry("newValue", Str(TypeNative))]))]);
      Speak(g, message, config, connectOk, env) == Step(g, [], None)
  {
  }

  /** A type the storage never should hold makes every call throw the
      `TypeError` naming that value, and nothing is queued or sent. */
  lemma UnknownTypeThrows(f: Facade, message: string, config: Obj, connectOk: bool, env: Client.SendEnv)
    requires f.clientType != Str(TypeBouyomi) && f.clientType != Str(TypeNative)
    ensures Speak(f, message, config, connectOk, env) == Step(f, [], Some(TypeErrorText(f.clientType)))
    ensures Pause(f, connectOk, env) == Step(f, [], Some(TypeErrorText(f.clientType)))
    ensures Resume(f, connectOk, env) == Step(f, [], Some(TypeErrorText(f.clientType)))
    ensures Skip(f, connectOk, env) == Step(f, [], Some(TypeErrorText(f.clientType)))
  {
  }
}

=== FILE: fingerprint.dfy ===
/** The relay's content fingerprint: the 32-bit string hash `simpleHash` and the
    lock name built from it. */
module Fingerprint {

  import opened Wrappers
  import opened JsValues
  import Numerals

  const TwoTo32: int := 0x1_0000_0000
  const TwoTo31: int := 0x8000_0000

  /** A UTF-16 code unit, what `charCodeAt` returns. */
  type CodeUnit = c: int | 0 <= c < 0x1_0000

  type Int32 = x: int | -0x8000_0000 <= x < 0x8000_0000

  /** ECMAScript ToInt32: reduce modulo 2^32, then read the result as signed. */
  function ToInt32(x: int): Int32
  {
    var m := x % TwoTo32;
    if m >= TwoTo31 then m - TwoTo32 else m
  }

  /** How many multiples of 2^32 ToInt32 takes away. */
  function Wraps(x: int): (w: int)
    ensures ToInt32(x) == x - w * TwoTo32
  {
    if x % TwoTo32 >= TwoTo31 then x / TwoTo32 + 1 else x / TwoTo32
  }

  /** ToInt32 only depends on its argument modulo 2^32. */
  lemma ToInt32Shift(x: int, k: int)
    ensures ToInt32(x + k * TwoTo32) == ToInt32(x)
  {
    var y := x + k * TwoTo32;
    assert y == (x / TwoTo32 + k) * TwoTo32 + x % TwoTo32;
    ModUnique(y, x / TwoTo32 + k, x % TwoTo32);
  }

  lemma ModUnique(a: int, q: int, r: int)
    requires a == q * TwoTo32 + r && 0 <= r < TwoTo32
    ensures a % TwoTo32 == r
  {
  }

  /** One loop iteration as written: `hash = ((hash << 5) - hash) + char` followed
      by `hash = hash & hash`. The shift works on ToInt32 of its operand and wraps;
      the subtraction and addition are exact in double precision at these
      magnitudes; `x & x` is ToInt32(x). */
  function Step(h: Int32, c: CodeUnit): Int32
  {
    ToInt32(ToInt32(h * 32) - h + c)
  }

  /** Each step is the classic `31 * h + c`, wrapped to 32 bits. */
  lemma StepIsTimes31(h: Int32, c: CodeUnit)
    ensures Step(h, c) == ToInt32(31 * h + c)
  {
    var w := Wraps(h * 32);
    assert ToInt32(h * 32) - h + c == (31 * h + c) + (-w) * TwoTo32;
    ToInt32Shift(31 * h + c, -w);
  }

  /** `hash` after the loop has consumed every code unit of `s`. */
  function HashState(s: seq<CodeUnit>): Int32
  {
    if |s| == 0 then 0 else Step(HashState(s[..|s| - 1]), s[|s| - 1])
  }

  /** Reference: the same polynomial in unbounded integers,
      sum of s[i] * 31^(|s|-1-i), evaluated by Horner's rule. */
  function Polynomial(s: seq<CodeUnit>): int
  {
    if |s| == 0 then 0 else 31 * Polynomial(s[..|s| - 1]) + s[|s| - 1]
  }

  /** Wrapping at every step and wrapping once at the end agree. */
  lemma {:induction false} HashIsPolynomial(s: seq<CodeUnit>)
    ensures HashState(s) == ToInt32(Polynomial(s))
  {
    if |s| > 0 {
      var p, c := s[..|s| - 1], s[|s| - 1];
      HashIsPolynomial(p);
      var w := Wraps(Polynomial(p));
      StepIsTimes31(HashState(p), c);
      assert 31 * HashState(p) + c == (31 * Polynomial(p) + c) + (-31 * w) * TwoTo32;
      ToInt32Shift(31 * Polynomial(p) + c, -31 * w);
    }
  }

  function Abs(h: Int32): nat {
    if h < 0 then -(h as int) else h
  }

  /** `s.substring(0, n)`: an end past the length is clamped. */
  function Prefix(s: string, n: nat): string {
    if |s| <= n then s else s[..n]
  }

  /** `simpleHash(str)`. */
  function SimpleHash(s: seq<CodeUnit>): (r: string)
    ensures 1 <= |r| <= 8
    ensures |r| == 1 || r[0] != '0'
    ensures forall i :: 0 <= i < |r| ==> Numerals.IsDigitOf(r[i], 16)
    ensures Numerals.Parse(r, 16) == Abs(ToInt32(Polynomial(s)))
  {
    if |s| == 0 then
      assert Numerals.ToBase(0, 16) == "0";
      Numerals.ToBase(0, 16)
    else
      var digits := Numerals.ToBase(Abs(HashState(s)), 16);
      HexFitsEightDigits(Abs(HashState(s)));
      HashIsPolynomial(s);
      Numerals.ParseToBase(Abs(HashState(s)), 16);
      Prefix(digits, 8)
  }

  /** `|h|` is at most 2^31, so its hexadecimal rendering never needs more than
      eight digits and the `substring(0, 8)` never cuts anything. */
  lemma HexFitsEightDigits(n: nat)
    requires n <= TwoTo31
    ensures |Numerals.ToBase(n, 16)| <= 8
  {
    PowSixteenEight();
    Numerals.ToBaseLength(n, 16, 8);
  }

  lemma PowSixteenEight()
    ensures Numerals.Pow(16, 8) == TwoTo32
  {
    assert Numerals.Pow(16, 2) == 256;
    assert Numerals.Pow(16, 4) == 256 * 256 by {
      assert Numerals.Pow(16, 4) == 16 * (16 * Numerals.Pow(16, 2));
    }
    assert Numerals.Pow(16, 8) == 65536 * 65536 by {
      assert Numerals.Pow(16, 8) == 16 * (16 * (16 * (16 * Numerals.Pow(16, 4))));
    }
  }

  lemma SimpleHashEmpty()
    ensures SimpleHash([]) == "0"
  {
    assert Numerals.ToBase(0, 16) == "0";
  }

  /** `JSON.stringify({ commandType, props })`, left opaque: only its being a
      function of the command type and the props matters here. */
  type Serialiser = (JsValue, Obj) -> seq<CodeUnit>

  const LockPrefix: string := "bouyomi-"

  /** The Web Locks name `bouyomi-${commandType}-${simpleHash(messageContent)}`. */
  function LockName(commandType: JsValue, props: Obj, ser: Serialiser): string
  {
    LockPrefix + ToStr(commandType) + "-" + SimpleHash(ser(commandType, props))
  }

  /** Position of the last occurrence of `c`, as `lastIndexOf`. */
  function LastIndexOf(s: string, c: char): (r: Option<nat>)
    ensures r.Some? ==> r.value < |s| && s[r.value] == c
    ensures r.Some? ==> c !in s[r.value + 1..]
    ensures r.None? ==> c !in s
  {
    if |s| == 0 then None
    else if s[|s| - 1] == c then Some(|s| - 1)
    else
      var r := LastIndexOf(s[..|s| - 1], c);
      assert s == s[..|s| - 1] + [s[|s| - 1]];
      r
  }

  /** Reads the command type text and the hash back out of a lock name. */
  function ParseLockName(name: string): Option<(string, string)>
  {
    if |name| < |LockPrefix| || name[..|LockPrefix|] != LockPrefix then None
    else
      var rest := name[|LockPrefix|..];
      match LastIndexOf(rest, '-')
      case None => None
      case Some(i) => Some((rest[..i], rest[i + 1..]))
  }

  lemma LastIndexOfSplit(u: string, c: char, t: string)
    requires c !in t
    ensures LastIndexOf(u + [c] + t, c) == Some(|u|)
  {
    var s := u + [c] + t;
    assert s[|u|] == c;
    assert s[|u| + 1..] == t;
  }

  /** Round trip: the lock name records its command type text and the content
      hash, the hash being the part after the last dash. */
  lemma LockNameRoundTrip(commandType: JsValue, props: Obj, ser: Serialiser)
    ensures ParseLockName(LockName(commandType, props, ser))
      == Some((ToStr(commandType), SimpleHash(ser(commandType, props))))
  {
    var ct, h := ToStr(commandType), SimpleHash(ser(commandType, props));
    HexHasNoDash(h);
    ParseLockNameOf(ct, h);
  }

  lemma HexHasNoDash(h: string)
    requires forall i :: 0 <= i < |h| ==> Numerals.IsDigitOf(h[i], 16)
    ensures '-' !in h
  {
    forall i | 0 <= i < |h| ensures h[i] != '-' {
      assert Numerals.IsDigitOf(h[i], 16);
    }
  }

  lemma ParseLockNameOf(ct: string, h: string)
    requires '-' !in h
    ensures ParseLockName(LockPrefix + ct + "-" + h) == Some((ct, h))
  {
    var name := LockPrefix + ct + "-" + h;
    assert name[..|LockPrefix|] == LockPrefix;
    var rest := name[|LockPrefix|..];
    assert rest == ct + ['-'] + h;
    LastIndexOfSplit(ct, '-', h);
    assert rest[..|ct|] == ct;
    assert rest[|ct| + 1..] == h;
  }

  /** Equal lock names mean equal command type text and equal content hash. */
  lemma LockNameInjective(ct1: JsValue, p1: Obj, ct2: JsValue, p2: Obj, ser: Serialiser)
    requires LockName(ct1, p1, ser) == LockName(ct2, p2, ser)
    ensures ToStr(ct1) == ToStr(ct2)
    ensures SimpleHash(ser(ct1, p1)) == SimpleHash(ser(ct2, p2))
  {
    LockNameRoundTrip(ct1, p1, ser);
    LockNameRoundTrip(ct2, p2, ser);
  }
}

=== FILE: js_values.dfy ===
/** The slice of JavaScript's value model the relay and the client touch: primitive
    values, plain objects as ordered lists of own enumerable properties, property
    lookup and assignment, `Object.assign`, object rest-destructuring, truthiness,
    and the two string conversions the source relies on (`String(v)` and the one
    `Array.prototype.join` applies to each element). Numbers are integers here. */
module JsValues {

  import Numerals

  datatype JsValue =
    | Undefined
    | Null
    | Bool(b: bool)
    | Num(n: int)
    | Str(s: string)
    | Object(entries: seq<Entry>)

  /** One own enumerable property, in insertion order. */
  datatype Entry = Entry(key: string, value: JsValue)

  type Obj = seq<Entry>

  function Keys(o: Obj): (ks: seq<string>)
    ensures |ks| == |o|
  {
    if |o| == 0 then [] else [o[0].key] + Keys(o[1..])
  }

  /** A JavaScript object never holds the same key twice. */
  predicate DistinctKeys(o: Obj) {
    |o| == 0 || (o[0].key !in Keys(o[1..]) && DistinctKeys(o[1..]))
  }

  /** `o[k]`: the value stored under `k`, `undefined` when there is none. */
  function Get(o: Obj, k: string): (v: JsValue)
    ensures k !in Keys(o) ==> v == Undefined
  {
    if |o| == 0 then Undefined
    else if o[0].key == k then o[0].value
    else Get(o[1..], k)
  }

  /** `o[k] = v`: an existing key keeps its position, a new key goes last. */
  function Put(o: Obj, k: string, v: JsValue): (r: Obj)
    ensures Get(r, k) == v
    ensures forall k' :: k' != k ==> Get(r, k') == Get(o, k')
    ensures k in Keys(o) ==> Keys(r) == Keys(o)
    ensures k !in Keys(o) ==> Keys(r) == Keys(o) + [k]
    ensures DistinctKeys(o) ==> DistinctKeys(r)
  {
    if |o| == 0 then [Entry(k, v)]
    else if o[0].key == k then [Entry(k, v)] + o[1..]
    else
      var tail := Put(o[1..], k, v);
      assert ([o[0]] + tail)[1..] == tail;
      [o[0]] + tail
  }

  /** `Object.assign(target, source)`: the source's properties are put, in order,
      into the target. */
  function Assign(target: Obj, source: Obj): Obj
    decreases |source|
  {
    if |source| == 0 then target
    else
      var e := source[0];
      Assign(Put(target, e.key, e.value), source[1..])
  }

  /** What `Object.assign` promises: the target keeps its keys and gains only the
      source's, keys stay distinct, and every key the source has reads the
      source's value while every other key reads the target's. */
  lemma {:induction false} AssignSpec(target: Obj, source: Obj)
    ensures DistinctKeys(target) ==> DistinctKeys(Assign(target, source))
    ensures forall k :: k in Keys(target) ==> k in Keys(Assign(target, source))
    ensures forall k :: k in Keys(Assign(target, source)) ==> k in Keys(target) || k in Keys(source)
    ensures DistinctKeys(source) ==> forall k ::
      Get(Assign(target, source), k) == (if k in Keys(source) then Get(source, k) else Get(target, k))
    decreases |source|
  {
    if |source| > 0 {
      var e := source[0];
      AssignSpec(Put(target, e.key, e.value), source[1..]);
      assert Keys(source) == [e.key] + Keys(source[1..]);
    }
  }

  /** The rest object of `const {k1, k2, ...rest} = o`: every property whose key is
      not destructured by name, in the original order. */
  function Omit(o: Obj, ks: set<string>): (r: Obj)
    ensures forall k :: Get(r, k) == (if k in ks then Undefined else Get(o, k))
    ensures forall k :: k in Keys(r) <==> k in Keys(o) && k !in ks
    ensures DistinctKeys(o) ==> DistinctKeys(r)
    ensures |r| <= |o|
  {
    if |o| == 0 then []
    else
      var tail := Omit(o[1..], ks);
      if o[0].key in ks then tail
      else
        assert ([o[0]] + tail)[1..] == tail;
        [o[0]] + tail
  }

  /** The keys of `ks` that are not in `names`, in their order. */
  function FilterKeys(ks: seq<string>, names: set<string>): seq<string> {
    if |ks| == 0 then []
    else if ks[0] in names then FilterKeys(ks[1..], names)
    else [ks[0]] + FilterKeys(ks[1..], names)
  }

  /** The rest object lists its keys in the order the original object did. */
  lemma {:induction false} OmitKeepsOrder(o: Obj, names: set<string>)
    ensures Keys(Omit(o, names)) == FilterKeys(Keys(o), names)
    decreases |o|
  {
    if |o| > 0 {
      OmitKeepsOrder(o[1..], names);
      assert Keys(o)[1..] == Keys(o[1..]);
      var tail := Omit(o[1..], names);
      if o[0].key !in names {
        assert ([o[0]] + tail)[1..] == tail;
      }
    }
  }

  /** Assigning a property that a rest-destructuring names leaves the rest object as
      it was. */
  lemma {:induction false} OmitPut(o: Obj, k: string, v: JsValue, ks: set<string>)
    requires k in ks
    ensures Omit(Put(o, k, v), ks) == Omit(o, ks)
    decreases |o|
  {
    if |o| > 0 && o[0].key != k {
      OmitPut(o[1..], k, v, ks);
      assert Put(o, k, v)[1..] == Put(o[1..], k, v);
    }
  }

  /** JavaScript truthiness: `if (v)`. */
  predicate Truthy(v: JsValue) {
    match v
    case Undefined => false
    case Null => false
    case Bool(b) => b
    case Num(n) => n != 0
    case Str(s) => |s| > 0
    case Object(_) => true
  }

  /** `String(v)`, also what `+` with a string and a template literal produce. */
  function ToStr(v: JsValue): string {
    match v
    case Undefined => "undefined"
    case Null => "null"
    case Bool(b) => if b then "true" else "false"
    case Num(n) => Numerals.DecimalString(n)
    case Str(s) => s
    case Object(_) => "[object Object]"
  }

  /** How `Array.prototype.join` renders one element: `null` and `undefined` become
      the empty string, everything else goes through `String`. */
  function JoinText(v: JsValue): string
  {
    if v.Undefined? || v.Null? then "" else ToStr(v)
  }
}

=== FILE: ledger.dfy ===
/** The persisted dedup ledger behind `isMessageProcessed` and
    `markMessageAsProcessed`: the list stored under `processedMessages`, read into
    a `Set` (insertion-ordered, duplicates dropped), extended, cut back by a batch
    of the oldest entries when it grows past its capacity, and written back.
    Storage is the list value itself. */
module Ledger {

  const Capacity: nat := 100
  const EvictBatch: nat := 50

  predicate NoDup<T(==,!new)>(s: seq<T>) {
    forall i, j :: 0 <= i < j < |s| ==> s[i] != s[j]
  }

  /** Iteration order of `new Set(list)`: each element at its first occurrence. */
  function Dedup<T(==,!new)>(l: seq<T>): (r: seq<T>)
    ensures NoDup(r)
    ensures forall x :: x in r <==> x in l
    ensures |r| <= |l|
  {
    if |l| == 0 then []
    else
      var d := Dedup(l[..|l| - 1]);
      assert forall x :: x in l <==> x in l[..|l| - 1] || x == l[|l| - 1] by {
        assert l == l[..|l| - 1] + [l[|l| - 1]];
      }
      if l[|l| - 1] in d then d else d + [l[|l| - 1]]
  }

  /** A list that already has no duplicates reads back unchanged. */
  lemma {:induction false} DedupOfNoDup<T(!new)>(l: seq<T>)
    requires NoDup(l)
    ensures Dedup(l) == l
  {
    if |l| > 0 {
      DedupOfNoDup(l[..|l| - 1]);
      assert l == l[..|l| - 1] + [l[|l| - 1]];
    }
  }

  /** `isMessageProcessed(id)`. */
  predicate IsProcessed<T(==,!new)>(stored: seq<T>, id: T) {
    id in Dedup(stored)
  }

  /** The list `markMessageAsProcessed(id)` writes back. */
  function MarkProcessed<T(==,!new)>(stored: seq<T>, id: T): (r: seq<T>)
    ensures NoDup(r)
    ensures forall x :: x in r ==> x in stored || x == id
  {
    var s := Dedup(stored);
    var added := if id in s then s else s + [id];
    assert NoDup(added);
    if |added| > Capacity then added[EvictBatch..] else added
  }

  /** A ledger as the relay itself leaves it: no duplicates, within capacity. */
  predicate Valid<T(==,!new)>(stored: seq<T>) {
    NoDup(stored) && |stored| <= Capacity
  }

  /** Marking keeps a valid ledger valid and the id is then reported processed. */
  lemma MarkKeepsValid<T(!new)>(stored: seq<T>, id: T)
    requires Valid(stored)
    ensures Valid(MarkProcessed(stored, id))
    ensures IsProcessed(MarkProcessed(stored, id), id)
  {
    DedupOfNoDup(stored);
    DedupOfNoDup(MarkProcessed(stored, id));
  }

  /** The conditional form the handlers use while building their result. */
  lemma MarkKeepsValidWhen<T(!new)>(stored: seq<T>, id: T)
    ensures Valid(stored) ==> Valid(MarkProcessed(stored, id))
  {
    if Valid(stored) {
      MarkKeepsValid(stored, id);
    }
  }

  /** From a ledger of at most 100 distinct ids: marking an id already there
      writes the same list back; a new id goes last; when that makes 101 entries
      the 50 earliest are dropped and the other 51 keep their order. */
  lemma MarkCases<T(!new)>(stored: seq<T>, id: T)
    requires |Dedup(stored)| <= Capacity
    ensures id in stored ==> MarkProcessed(stored, id) == Dedup(stored)
    ensures id !in stored && |Dedup(stored)| < Capacity
      ==> MarkProcessed(stored, id) == Dedup(stored) + [id]
    ensures id !in stored && |Dedup(stored)| == Capacity
      ==> MarkProcessed(stored, id) == Dedup(stored)[EvictBatch..] + [id]
    ensures |MarkProcessed(stored, id)| <= Capacity
  {
    var s := Dedup(stored);
    if id !in stored && |s| == Capacity {
      DropAppend(s, id, EvictBatch);
    }
  }

  lemma DropAppend<T>(s: seq<T>, x: T, n: nat)
    requires n <= |s|
    ensures (s + [x])[n..] == s[n..] + [x]
  {
  }

  /** The evicted entries are exactly the 50 that were inserted first. */
  lemma EvictionDropsOldest<T(!new)>(stored: seq<T>, id: T)
    requires |Dedup(stored)| == Capacity && id !in stored
    ensures forall i :: 0 <= i < EvictBatch ==> Dedup(stored)[i] !in MarkProcessed(stored, id)
    ensures forall i :: EvictBatch <= i < Capacity ==> Dedup(stored)[i] in MarkProcessed(stored, id)
  {
    var s := Dedup(stored);
    MarkCases(stored, id);
    var kept := s[EvictBatch..];
    assert MarkProcessed(stored, id) == kept + [id];
    forall i | 0 <= i < EvictBatch ensures s[i] !in kept + [id] {
      assert s[i] in stored;
      forall j | 0 <= j < |kept| ensures kept[j] != s[i] {
        assert kept[j] == s[EvictBatch + j];
      }
    }
    forall i | EvictBatch <= i < Capacity ensures s[i] in kept + [id] {
      assert kept[i - EvictBatch] == s[i];
    }
  }

  /** Marking twice is marking once. */
  lemma MarkIdempotent<T(!new)>(stored: seq<T>, id: T)
    requires |Dedup(stored)| <= Capacity
    ensures MarkProcessed(MarkProcessed(stored, id), id) == MarkProcessed(stored, id)
  {
    var r := MarkProcessed(stored, id);
    MarkCases(stored, id);
    DedupOfNoDup(r);
    assert id in r;
    MarkCases(r, id);
  }

  /** Marking every id of a list in turn. */
  function MarkAll<T(==,!new)>(stored: seq<T>, ids: seq<T>): seq<T>
    decreases |ids|
  {
    if |ids| == 0 then stored
    else MarkProcessed(MarkAll(stored, ids[..|ids| - 1]), ids[|ids| - 1])
  }

  /** Marking a fresh id onto a valid ledger. */
  lemma MarkFresh<T(!new)>(r: seq<T>, x: T)
    requires Valid(r) && x !in r
    ensures MarkProcessed(r, x) == if |r| < Capacity then r + [x] else r[EvictBatch..] + [x]
  {
    DedupOfNoDup(r);
    MarkCases(r, x);
  }

  lemma LastIsFresh<T(!new)>(ids: seq<T>, k: nat)
    requires NoDup(ids) && k < |ids|
    ensures ids[|ids| - 1] !in ids[k..|ids| - 1]
  {
  }

  lemma SuffixExtends<T>(ids: seq<T>, k: nat)
    requires k < |ids|
    ensures ids[..|ids| - 1][k..] + [ids[|ids| - 1]] == ids[k..]
    ensures k + EvictBatch < |ids| ==>
      ids[..|ids| - 1][k..][EvictBatch..] + [ids[|ids| - 1]] == ids[k + EvictBatch..]
  {
  }

  /** The window the ledger remembers: after marking distinct ids one by one from
      an empty ledger, the ledger is the most recent stretch of those ids, never
      more than 100 and never fewer than the last 51 (or all of them). */
  lemma {:induction false} MarkAllWindow<T(!new)>(ids: seq<T>)
    requires NoDup(ids)
    ensures var r := MarkAll([], ids);
      && |r| <= Capacity
      && |r| <= |ids|
      && |r| >= (if |ids| < Capacity - EvictBatch + 1 then |ids| else Capacity - EvictBatch + 1)
      && r == ids[|ids| - |r|..]
  {
    if |ids| > 0 {
      var p, x := ids[..|ids| - 1], ids[|ids| - 1];
      assert NoDup(p);
      MarkAllWindow(p);
      var r := MarkAll([], p);
      var k := |p| - |r|;
      assert r == p[k..];
      LastIsFresh(ids, k);
      assert x !in r;
      MarkFresh(r, x);
      SuffixExtends(ids, k);
      var r' := MarkAll([], ids);
      assert r' == MarkProcessed(r, x);
      if |r| < Capacity {
        assert r' == r + [x];
        assert r' == ids[k..];
      } else {
        assert r' == r[EvictBatch..] + [x];
        assert r' == ids[k + EvictBatch..];
      }
    }
  }
}

=== FILE: numerals.dfy ===
/** Rendering of non-negative integers in a positional base, as
    `Number.prototype.toString(radix)` does for integral values (lower-case digits,
    no leading zeros, "0" for zero), together with the parser that inverts it. */
module Numerals {

  import opened Wrappers

  predicate ValidBase(base: nat) {
    2 <= base <= 16
  }

  /** The value a digit character stands for, `0-9` then lower-case `a-f`. */
  function CharValue(c: char): int {
    if '0' <= c <= '9' then c as int - '0' as int
    else if 'a' <= c <= 'f' then c as int - 'a' as int + 10
    else -1
  }

  /** `c` is one of the first `base` characters of `0123456789abcdef`. */
  predicate IsDigitOf(c: char, base: nat)
    requires ValidBase(base)
  {
    0 <= CharValue(c) < base
  }

  function DigitChar(d: nat, base: nat): (c: char)
    requires ValidBase(base) && d < base
    ensures IsDigitOf(c, base) && CharValue(c) == d
  {
    if d < 10 then ('0' as int + d) as char else ('a' as int + d - 10) as char
  }

  /** Index of a digit character; the inverse of DigitChar. */
  function DigitValue(c: char, base: nat): (d: nat)
    requires ValidBase(base) && IsDigitOf(c, base)
    ensures d < base && DigitChar(d, base) == c
  {
    CharValue(c)
  }

  /** Distinct digit values have distinct characters, so DigitValue undoes DigitChar. */
  lemma DigitRoundTrip(d: nat, base: nat)
    requires ValidBase(base) && d < base
    ensures DigitValue(DigitChar(d, base), base) == d
  {
  }

  /** `n.toString(base)` for a non-negative integer `n`. */
  function ToBase(n: nat, base: nat): (s: string)
    requires ValidBase(base)
    ensures |s| >= 1
    ensures forall i :: 0 <= i < |s| ==> IsDigitOf(s[i], base)
    ensures s[0] == '0' ==> n == 0 && s == "0"
    decreases n
  {
    if n < base then [DigitChar(n, base)]
    else
      DivMod(n, base);
      ToBase(n / base, base) + [DigitChar(n % base, base)]
  }

  predicate AllDigits(s: string, base: nat)
    requires ValidBase(base)
  {
    forall i :: 0 <= i < |s| ==> IsDigitOf(s[i], base)
  }

  lemma AllDigitsPrefix(s: string, base: nat)
    requires ValidBase(base) && AllDigits(s, base) && |s| > 0
    ensures AllDigits(s[..|s| - 1], base) && IsDigitOf(s[|s| - 1], base)
  {
    var prefix := s[..|s| - 1];
    forall i | 0 <= i < |prefix| ensures IsDigitOf(prefix[i], base) {
      assert prefix[i] == s[i];
    }
  }

  /** Value of a digit string read most-significant first. */
  function Parse(s: string, base: nat): nat
    requires ValidBase(base) && AllDigits(s, base)
    decreases |s|
  {
    if |s| == 0 then 0
    else
      AllDigitsPrefix(s, base);
      Parse(s[..|s| - 1], base) * base + DigitValue(s[|s| - 1], base)
  }

  function Pow(b: nat, k: nat): (p: nat)
    ensures b >= 1 ==> p >= 1
  {
    if k == 0 then 1 else b * Pow(b, k - 1)
  }

  /** Rendering then parsing gives the number back. */
  lemma {:induction false} ParseToBase(n: nat, base: nat)
    requires ValidBase(base)
    ensures Parse(ToBase(n, base), base) == n
    decreases n
  {
    var s := ToBase(n, base);
    if n < base {
      DigitRoundTrip(n, base);
    } else {
      var q, d := n / base, n % base;
      DivMod(n, base);
      ParseToBase(q, base);
      ParseSnoc(ToBase(q, base), d, base);
    }
  }

  lemma ParseSnoc(prefix: string, d: nat, base: nat)
    requires ValidBase(base) && d < base
    requires forall i :: 0 <= i < |prefix| ==> IsDigitOf(prefix[i], base)
    ensures Parse(prefix + [DigitChar(d, base)], base) == Parse(prefix, base) * base + d
  {
    var s := prefix + [DigitChar(d, base)];
    assert s[..|s| - 1] == prefix;
    DigitRoundTrip(d, base);
  }

  /** A number below base^k needs at most k digits. */
  lemma {:induction false} ToBaseLength(n: nat, base: nat, k: nat)
    requires ValidBase(base) && k >= 1 && n < Pow(base, k)
    ensures |ToBase(n, base)| <= k
    decreases k
  {
    if n >= base {
      assert k != 1 by {
        assert Pow(base, 1) == base;
      }
      assert Pow(base, k) == base * Pow(base, k - 1);
      DivBelow(n, base, Pow(base, k - 1));
      ToBaseLength(n / base, base, k - 1);
    }
  }

  lemma DivMod(n: nat, b: nat)
    requires b >= 2
    ensures (n / b) * b + n % b == n
    ensures n >= b ==> n / b < n
  {
    var q := n / b;
    assert q * b + n % b == n;
    MulMonotone(q, 2, b);
    assert q * 2 <= q * b;
    if n >= b {
      assert q >= 1;
    }
  }

  lemma DivBelow(n: nat, b: nat, m: nat)
    requires b >= 1 && n < b * m
    ensures n / b < m
  {
    var q := n / b;
    assert b * q <= n;
    MulMonotone(b, m, q);
  }

  lemma MulMonotone(b: nat, m: nat, q: nat)
    ensures m <= q ==> b * m <= b * q
  {
    if m <= q {
      assert b * q == b * m + b * (q - m);
    }
  }

  /** JavaScript's `String(n)` for an integer below 10^21 in magnitude: a minus
      sign for a negative one, then decimal digits. Larger numbers render in
      exponent form, which this does not follow. */
  function DecimalString(n: int): (s: string)
    ensures |s| >= 1
    ensures forall i :: 0 <= i < |s| ==> s[i] == '-' || IsDigitOf(s[i], 10)
  {
    if n < 0 then "-" + ToBase(-n, 10) else ToBase(n, 10)
  }

  /** Reads a decimal rendering back; None when it is not one. */
  function ParseDecimal(s: string): Option<int>
  {
    if |s| >= 2 && s[0] == '-' && AllDigits(s[1..], 10) then
      Some(-(Parse(s[1..], 10) as int))
    else if |s| >= 1 && AllDigits(s, 10) then
      Some(Parse(s, 10))
    else None
  }

  /** The decimal rendering is read back exactly. */
  lemma DecimalRoundTrip(n: int)
    ensures ParseDecimal(DecimalString(n)) == Some(n)
  {
    var s := DecimalString(n);
    if n < 0 {
      assert s[1..] == ToBase(-n, 10);
      ParseToBase(-n, 10);
    } else {
      assert IsDigitOf(s[0], 10);
      assert s[0] != '-';
      assert AllDigits(s, 10);
      ParseToBase(n, 10);
    }
  }
}

=== FILE: relay.dfy ===
/** The service worker's relay decisions: the live-connection map, the handler
    for commands arriving on a `bouyomi-client` port, and the one-shot
    `runtime.onMessage` handler kept for older callers. Each handler is a pure
    function from the stored ledger and the incoming message to the reply, the
    ledger written back, and the lock and URL of the engine request it makes.
    The engine is a parameter: it maps a URL to the decoded JSON reply or to the
    message of the error that `fetch` or `json()` threw. */
module Relay {

  import opened Wrappers
  import opened JsValues
  import Fingerprint
  import Ledger
  import UriEncoding
  import Strings

  const ClientPortName: string := "bouyomi-client"

  const ErrNoPort: string := "ポートが指定されていません"
  const ErrDuplicate: string := "重複メッセージです"
  const ErrLockBusy: string := "同じ内容の処理が実行中のため実行できませんでした"

  datatype EngineResult = Fetched(json: JsValue) | FetchFailed(message: string)

  type Engine = string -> EngineResult

  datatype Reply =
    | Established(connectionId: string)   // { type: 'connection_established', connectionId }
    | Success(data: JsValue)              // { success: true, data }
    | Passthrough(data: JsValue)          // the engine's JSON as it is
    | Failure(error: string)              // { error }
    | Pong(timestamp: int, connections: nat, isActive: bool)

  /** The list stored under `processedMessages`. */
  type Store = seq<JsValue>

  /** The engine request made under the exclusive lock `lock`. */
  datatype Dispatch = Dispatch(lock: string, url: string)

  // ---- Live connections ----

  type Connections = map<string, nat>

  /** `onConnect`: a `bouyomi-client` port is stored under its id (the connect
      time, a parameter here) and told the id; any other port is ignored. */
  function Connect(conns: Connections, portName: string, connectionId: string, port: nat)
    : (r: (Connections, Option<Reply>))
    ensures portName == ClientPortName ==> r.0.Keys == conns.Keys + {connectionId}
    ensures forall id :: id in conns && id != connectionId ==> id in r.0 && r.0[id] == conns[id]
    ensures r.1.Some? <==> portName == ClientPortName
    ensures r.1.Some? ==>
      r.1.value.Established? && r.1.value.connectionId in r.0 && r.0[r.1.value.connectionId] == port
    ensures portName != ClientPortName ==> r.0 == conns
  {
    if portName == ClientPortName then (conns[connectionId := port], Some(Established(connectionId)))
    else (conns, None)
  }

  /** `onDisconnect`: the id's entry is removed. */
  function Disconnect(conns: Connections, connectionId: string): (r: Connections)
    ensures connectionId !in r
    ensures forall id :: id in conns && id != connectionId ==> id in r && r[id] == conns[id]
    ensures r.Keys == conns.Keys - {connectionId}
  {
    conns - {connectionId}
  }

  /** A fresh client connection adds one entry, and its disconnect restores the
      map; two connections with the same id share one entry. */
  lemma ConnectThenDisconnect(conns: Connections, connectionId: string, port: nat)
    ensures connectionId !in conns ==> |Connect(conns, ClientPortName, connectionId, port).0| == |conns| + 1
    ensures connectionId !in conns ==> Disconnect(Connect(conns, ClientPortName, connectionId, port).0, connectionId) == conns
    ensures connectionId in conns ==> |Connect(conns, ClientPortName, connectionId, port).0| == |conns|
  {
    var r := Connect(conns, ClientPortName, connectionId, port).0;
    if connectionId !in conns {
      assert r.Keys == conns.Keys + {connectionId};
    } else {
      assert r.Keys == conns.Keys;
    }
  }

  // ---- Engine URL ----

  const GetVoiceCommand: JsValue := Str("BouyomiGetVoice")
  const TalkCommand: JsValue := Str("talk")

  function BaseUrl(port: JsValue): string {
    "http://localhost:" + ToStr(port)
  }

  /** One `key=value` pair of the query, both sides encoded. */
  function QueryPair(e: Entry): string {
    UriEncoding.EncodeURIComponent(e.key) + "=" + UriEncoding.EncodeURIComponent(ToStr(e.value))
  }

  function QueryParts(props: Obj): (parts: seq<string>)
    ensures |parts| == |props|
  {
    seq(|props|, i requires 0 <= i < |props| => QueryPair(props[i]))
  }

  /** `Object.entries(props).map(...).join('&')`. */
  function QueryString(props: Obj): string {
    Strings.Join(QueryParts(props), "&")
  }

  /** The URL fetched for a command. */
  function RequestUrl(commandType: JsValue, port: JsValue, props: Obj): string {
    if commandType == GetVoiceCommand then BaseUrl(port) + "/GetVoiceList"
    else
      var query := if commandType != TalkCommand then "" else "?" + QueryString(props);
      BaseUrl(port) + "/" + ToStr(commandType) + query
  }

  /** Only `talk` carries a query: with a port and command type free of `?`, the
      URL holds a `?` exactly when the command is `talk`, and the voice list has
      its own fixed path. */
  lemma QueryOnlyForTalk(commandType: JsValue, port: JsValue, props: Obj)
    requires '?' !in ToStr(port) && '?' !in ToStr(commandType)
    ensures '?' in RequestUrl(commandType, port, props) <==> commandType == TalkCommand
    ensures commandType == GetVoiceCommand ==> RequestUrl(commandType, port, props) == BaseUrl(port) + "/GetVoiceList"
    ensures commandType != GetVoiceCommand && commandType != TalkCommand ==>
      RequestUrl(commandType, port, props) == BaseUrl(port) + "/" + ToStr(commandType)
  {
    var base := BaseUrl(port);
    assert '?' !in "http://localhost:";
    assert '?' !in base;
    if commandType == TalkCommand {
      var u := base + "/" + ToStr(commandType) + "?" + QueryString(props);
      assert u[|base| + 1 + |ToStr(commandType)|] == '?';
    } else if commandType == GetVoiceCommand {
      assert '?' !in "/GetVoiceList";
    } else {
      assert '?' !in "/" + ToStr(commandType);
    }
  }

  /** The query as the engine splits it: pairs on `&`, then key and value on the
      first `=`. */
  function ParseQuery(q: string): seq<(string, string)>
  {
    if q == "" then []
    else
      var pairs := Strings.Split(q, "&");
      seq(|pairs|, i requires 0 <= i < |pairs| => SplitPair(pairs[i]))
  }

  function SplitPair(p: string): (string, string) {
    match Strings.IndexOf(p, "=")
    case None => (p, "")
    case Some(i) => (p[..i], p[i + 1..])
  }

  function DecodeComponent(s: string): Option<string> {
    match UriEncoding.PercentDecode(s)
    case None => None
    case Some(bytes) => UriEncoding.Utf8Decode(bytes)
  }

  lemma SplitQueryPair(e: Entry)
    ensures SplitPair(QueryPair(e))
      == (UriEncoding.EncodeURIComponent(e.key), UriEncoding.EncodeURIComponent(ToStr(e.value)))
  {
    var k, v := UriEncoding.EncodeURIComponent(e.key), UriEncoding.EncodeURIComponent(ToStr(e.value));
    UriEncoding.NoQuerySeparators(e.key);
    Strings.IndexOfAfterPiece(k, "=", v);
    var p := k + "=" + v;
    assert p[..|k|] == k;
    assert p[|k| + 1..] == v;
  }

  /** No encoded pair holds `&`, and each holds `=`. */
  lemma QueryPartShape(props: Obj, i: nat)
    requires i < |props|
    ensures '&' !in QueryParts(props)[i] && '=' in QueryParts(props)[i]
  {
    var e := props[i];
    var k, v := UriEncoding.EncodeURIComponent(e.key), UriEncoding.EncodeURIComponent(ToStr(e.value));
    UriEncoding.NoQuerySeparators(e.key);
    UriEncoding.NoQuerySeparators(ToStr(e.value));
    assert QueryParts(props)[i] == k + "=" + v;
    assert (k + "=" + v)[|k|] == '=';
  }

  /** The query is empty exactly when there are no props; otherwise splitting
      it on `&` gives the encoded pairs back. */
  lemma SplitQuery(props: Obj)
    ensures QueryString(props) == "" <==> |props| == 0
    ensures |props| > 0 ==> Strings.Split(QueryString(props), "&") == QueryParts(props)
  {
    var parts := QueryParts(props);
    if |props| > 0 {
      forall i | 0 <= i < |parts| ensures '&' !in parts[i] && '=' in parts[i] {
        QueryPartShape(props, i);
      }
      Strings.AbsentCharNeverOccurs(parts[|parts| - 1], '&');
      Strings.SplitJoin(parts, "&");
      NonEmptyJoin(parts);
    }
  }

  /** Round trip: the engine recovers every property, in entry order, each key and
      value (as `String(value)`) decoded back exactly. */
  lemma QueryRoundTrip(props: Obj)
    ensures |ParseQuery(QueryString(props))| == |props|
    ensures forall i :: 0 <= i < |props| ==>
      DecodeComponent(ParseQuery(QueryString(props))[i].0) == Some(props[i].key) &&
      DecodeComponent(ParseQuery(QueryString(props))[i].1) == Some(ToStr(props[i].value))
  {
    SplitQuery(props);
    var q := QueryString(props);
    forall i | 0 <= i < |props|
      ensures DecodeComponent(ParseQuery(q)[i].0) == Some(props[i].key)
      ensures DecodeComponent(ParseQuery(q)[i].1) == Some(ToStr(props[i].value))
    {
      assert ParseQuery(q)[i] == SplitPair(QueryPair(props[i]));
      SplitQueryPair(props[i]);
      UriEncoding.EncodeRoundTrip(props[i].key);
      UriEncoding.EncodeRoundTrip(ToStr(props[i].value));
    }
  }

  /** A join of parts that each contain `=` is never empty. */
  lemma NonEmptyJoin(parts: seq<string>)
    requires |parts| > 0 && forall i :: 0 <= i < |parts| ==> '=' in parts[i]
    ensures Strings.Join(parts, "&") != ""
  {
    if |parts| == 1 {
      assert '=' in parts[0];
    } else {
      assert Strings.Join(parts, "&") == parts[0] + "&" + Strings.Join(parts[1..], "&");
    }
  }

  // ---- Commands on a client port ----

  /** The names destructured out of a port message; the rest are the props. */
  const ConnectionKeys: set<string> := {"commandType", "port", "time"}

  /** The one-shot handler also takes `messageId` out of the props. */
  const OneShotKeys: set<string> := {"commandType", "port", "time", "messageId"}

  function PortProps(message: Obj): Obj {
    Omit(message, ConnectionKeys)
  }

  function PortLock(message: Obj, ser: Fingerprint.Serialiser): string {
    Fingerprint.LockName(Get(message, "commandType"), PortProps(message), ser)
  }

  function PortUrl(message: Obj): string {
    RequestUrl(Get(message, "commandType"), Get(message, "port"), PortProps(message))
  }

  datatype PortOutcome = PortOutcome(reply: Option<Reply>, ledger: Store, dispatch: Option<Dispatch>)

  /** The reply posted for the engine's answer on a client port. */
  function PortReply(e: EngineResult): Reply {
    match e
    case Fetched(json) => Success(json)
    case FetchFailed(message) => Failure(message)
  }

  /** A message on a `bouyomi-client` port. A message without a port is refused;
      a message whose lock name the ledger already holds is dropped without a
      reply; any other records its lock name, then asks the engine under that
      lock and posts what came back. */
  function OnPortMessage(ledger: Store, message: Obj, ser: Fingerprint.Serialiser, engine: Engine)
    : (o: PortOutcome)
    ensures !Truthy(Get(message, "port")) ==>
      o.reply == Some(Failure(ErrNoPort)) && o.ledger == ledger && o.dispatch.None?
    ensures o.reply.None? <==>
      Truthy(Get(message, "port")) && Ledger.IsProcessed(ledger, Str(PortLock(message, ser)))
    ensures Truthy(Get(message, "port")) && !Ledger.IsProcessed(ledger, Str(PortLock(message, ser)))
      ==> o.dispatch.Some?
    ensures o.dispatch.None? ==> o.ledger == ledger
    ensures o.dispatch.Some? ==>
      o.dispatch.value == Dispatch(PortLock(message, ser), PortUrl(message)) &&
      !Ledger.IsProcessed(ledger, Str(o.dispatch.value.lock)) &&
      o.ledger == Ledger.MarkProcessed(ledger, Str(o.dispatch.value.lock)) &&
      o.reply == Some(PortReply(engine(o.dispatch.value.url)))
    ensures Ledger.Valid(ledger) ==> Ledger.Valid(o.ledger)
  {
    if !Truthy(Get(message, "port")) then PortOutcome(Some(Failure(ErrNoPort)), ledger, None)
    else
      var lock := PortLock(message, ser);
      if Ledger.IsProcessed(ledger, Str(lock)) then PortOutcome(None, ledger, None)
      else
        var url := PortUrl(message);
        Ledger.MarkKeepsValidWhen(ledger, Str(lock));
        PortOutcome(Some(PortReply(engine(url))), Ledger.MarkProcessed(ledger, Str(lock)), Some(Dispatch(lock, url)))
  }

  /** The lock name, and with it the duplicate check, ignores `time` and `port`:
      the same command re-sent later or to another port is the same content. */
  lemma PortLockIgnoresTimeAndPort(message: Obj, k: string, v: JsValue, ser: Fingerprint.Serialiser)
    requires k == "time" || k == "port"
    ensures PortLock(Put(message, k, v), ser) == PortLock(message, ser)
  {
    OmitPut(message, k, v, ConnectionKeys);
  }

  /** A `messageId` stays among the props on a client port, so it is part of the
      content the lock name hashes. */
  lemma MessageIdIsPortContent(message: Obj, v: JsValue)
    ensures Get(PortProps(Put(message, "messageId", v)), "messageId") == v
  {
  }

  /** At most once: after a message has been handled, any message with the same
      command type and props (whatever its time or port) is dropped without a
      reply or an engine request, and the ledger is left alone. */
  lemma PortAtMostOnce(ledger: Store, m1: Obj, m2: Obj, ser: Fingerprint.Serialiser, e1: Engine, e2: Engine)
    requires Ledger.Valid(ledger)
    requires Truthy(Get(m1, "port")) && Truthy(Get(m2, "port"))
    requires Get(m1, "commandType") == Get(m2, "commandType") && PortProps(m1) == PortProps(m2)
    ensures OnPortMessage(OnPortMessage(ledger, m1, ser, e1).ledger, m2, ser, e2)
      == PortOutcome(None, OnPortMessage(ledger, m1, ser, e1).ledger, None)
  {
    var lock := Str(PortLock(m1, ser));
    if !Ledger.IsProcessed(ledger, lock) {
      Ledger.MarkKeepsValid(ledger, lock);
    }
  }

  // ---- One-shot messages ----

  function OneShotProps(message: Obj): Obj {
    Omit(message, OneShotKeys)
  }

  function OneShotLock(message: Obj, ser: Fingerprint.Serialiser): string {
    Fingerprint.LockName(Get(message, "commandType"), OneShotProps(message), ser)
  }

  function OneShotUrl(message: Obj): string {
    RequestUrl(Get(message, "commandType"), Get(message, "port"), OneShotProps(message))
  }

  /** The response handed back: the engine's JSON as it is, or, when the request
      under the lock failed, the lock-busy error (the failure escapes the lock
      callback and lands in the lock's catch). */
  function OneShotReply(e: EngineResult): Reply {
    match e
    case Fetched(json) => Passthrough(json)
    case FetchFailed(_) => Failure(ErrLockBusy)
  }

  predicate IsPing(message: Obj) {
    Get(message, "type") == Str("ping")
  }

  /** What the one-shot handler did: the response (if any), the listener's
      return value (`true` keeps the response channel open), the ledger written
      back and the engine request made. */
  datatype OneShotOutcome =
    OneShotOutcome(reply: Option<Reply>, keepOpen: bool, ledger: Store, dispatch: Option<Dispatch>)

  /** `runtime.onMessage`. A ping is answered with the time, the number of live
      connections and the (just ensured) active flag. A message without a port
      is not answered. A truthy `messageId` already in the ledger is answered
      with the duplicate error; otherwise a truthy id is recorded, and the engine
      is asked under a lock named after the command type and props. */
  function OnRuntimeMessage(ledger: Store, conns: Connections, now: int, message: Obj,
                            ser: Fingerprint.Serialiser, engine: Engine): (o: OneShotOutcome)
    ensures IsPing(message) ==>
      o == OneShotOutcome(Some(Pong(now, |conns|, true)), true, ledger, None)
    ensures o.keepOpen <==> IsPing(message) || Truthy(Get(message, "port"))
    ensures o.reply.None? <==> !o.keepOpen
    ensures o.reply == Some(Failure(ErrDuplicate)) <==>
      !IsPing(message) && Truthy(Get(message, "port")) && Truthy(Get(message, "messageId"))
      && Ledger.IsProcessed(ledger, Get(message, "messageId"))
    ensures !IsPing(message) && Truthy(Get(message, "port")) &&
      !(Truthy(Get(message, "messageId")) && Ledger.IsProcessed(ledger, Get(message, "messageId")))
      ==> o.dispatch.Some?
    ensures o.dispatch.None? ==> o.ledger == ledger
    ensures o.dispatch.Some? ==>
      o.dispatch.value == Dispatch(OneShotLock(message, ser), OneShotUrl(message)) &&
      o.reply == Some(OneShotReply(engine(o.dispatch.value.url))) &&
      o.ledger == (if Truthy(Get(message, "messageId"))
                   then Ledger.MarkProcessed(ledger, Get(message, "messageId")) else ledger)
    ensures Ledger.Valid(ledger) ==> Ledger.Valid(o.ledger)
  {
    if IsPing(message) then OneShotOutcome(Some(Pong(now, |conns|, true)), true, ledger, None)
    else if !Truthy(Get(message, "port")) then OneShotOutcome(None, false, ledger, None)
    else
      var id := Get(message, "messageId");
      if Truthy(id) && Ledger.IsProcessed(ledger, id) then
        OneShotOutcome(Some(Failure(ErrDuplicate)), true, ledger, None)
      else
        var ledger' := if Truthy(id) then Ledger.MarkProcessed(ledger, id) else ledger;
        Ledger.MarkKeepsValidWhen(ledger, id);
        var d := Dispatch(OneShotLock(message, ser), OneShotUrl(message));
        OneShotOutcome(Some(OneShotReply(engine(d.url))), true, ledger', Some(d))
  }

  /** The one-shot lock ignores `time`, `port` and `messageId`: two requests that
      differ only in those share a lock. */
  lemma OneShotLockIgnoresIds(message: Obj, k: string, v: JsValue, ser: Fingerprint.Serialiser)
    requires k in OneShotKeys - {"commandType"}
    ensures OneShotLock(Put(message, k, v), ser) == OneShotLock(message, ser)
  {
    OmitPut(message, k, v, OneShotKeys);
  }

  /** A request with a fresh `messageId` goes to the engine, and from then on
      every request with that id is answered with the duplicate error and no
      engine request. */
  lemma OneShotAtMostOnce(ledger: Store, conns: Connections, now: int, m1: Obj, m2: Obj,
                          ser: Fingerprint.Serialiser, e1: Engine, e2: Engine)
    requires Ledger.Valid(ledger)
    requires !IsPing(m1) && Truthy(Get(m1, "port"))
    requires Truthy(Get(m1, "messageId")) && !Ledger.IsProcessed(ledger, Get(m1, "messageId"))
    requires Get(m2, "messageId") == Get(m1, "messageId")
    requires !IsPing(m2) && Truthy(Get(m2, "port"))
    ensures OnRuntimeMessage(ledger, conns, now, m1, ser, e1).dispatch.Some?
    ensures OnRuntimeMessage(OnRuntimeMessage(ledger, conns, now, m1, ser, e1).ledger, conns, now, m2, ser, e2)
      == OneShotOutcome(Some(Failure(ErrDuplicate)), true, OnRuntimeMessage(ledger, conns, now, m1, ser, e1).ledger, None)
  {
    Ledger.MarkKeepsValid(ledger, Get(m1, "messageId"));
  }

  /** Without a truthy `messageId` nothing is suppressed: every request with a
      port reaches the engine and the ledger is not written. */
  lemma NoIdNoSuppression(ledger: Store, conns: Connections, now: int, message: Obj,
                          ser: Fingerprint.Serialiser, engine: Engine)
    requires !IsPing(message) && Truthy(Get(message, "port")) && !Truthy(Get(message, "messageId"))
    ensures OnRuntimeMessage(ledger, conns, now, message, ser, engine).dispatch.Some?
    ensures OnRuntimeMessage(ledger, conns, now, message, ser, engine).ledger == ledger
  {
  }
}

=== FILE: socket_payload.dfy ===
/** The string the YouTube Live content script sends to the speech engine's
    WebSocket bridge: speed, pitch, volume, voice type and message joined by a
    fixed delimiter, with the engine's "use your own setting" defaults. */
module SocketPayload {

  import opened Wrappers
  import opened JsValues
  import Strings
  import Numerals

  const Delimiter: string := "<bouyomi>"

  /** `v !== undefined ? v : fallback`. */
  function OrDefault(v: JsValue, fallback: int): JsValue
  {
    if v != Undefined then v else Num(fallback)
  }

  /** The five array elements, in the order they are joined. */
  function Fields(message: string, config: Obj): seq<JsValue>
  {
    [ OrDefault(Get(config, "speed"), -1),
      OrDefault(Get(config, "pitch"), -1),
      OrDefault(Get(config, "volume"), -1),
      OrDefault(Get(config, "type"), 0),
      Str(message) ]
  }

  /** The payload `sendMessageToSocket(message, config)` sends once the socket
      opens. */
  function Payload(message: string, config: Obj): string
  {
    var f := Fields(message, config);
    Strings.Join([JoinText(f[0]), JoinText(f[1]), JoinText(f[2]), JoinText(f[3]), message], Delimiter)
  }

  /** The settings and text a payload carries, as the receiving side reads them. */
  datatype Speech = Speech(speed: int, pitch: int, volume: int, voiceType: int, message: string)

  /** Split on the delimiter and read the four leading fields as integers. */
  function Decode(payload: string): Option<Speech>
  {
    var parts := Strings.Split(payload, Delimiter);
    if |parts| != 5 then None
    else
      match (Numerals.ParseDecimal(parts[0]), Numerals.ParseDecimal(parts[1]),
             Numerals.ParseDecimal(parts[2]), Numerals.ParseDecimal(parts[3]))
      case (Some(s), Some(p), Some(v), Some(t)) => Some(Speech(s, p, v, t, parts[4]))
      case _ => None
  }

  /** Splitting a payload gives back exactly the five rendered fields, the message
      last, as long as the settings render without a `<` and the message does not
      contain the delimiter. */
  lemma SplitPayload(message: string, config: Obj)
    requires forall i :: 0 <= i < 4 ==> '<' !in JoinText(Fields(message, config)[i])
    requires !Strings.Occurs(message, Delimiter)
    ensures Strings.Split(Payload(message, config), Delimiter)
      == [JoinText(Fields(message, config)[0]), JoinText(Fields(message, config)[1]),
          JoinText(Fields(message, config)[2]), JoinText(Fields(message, config)[3]), message]
  {
    var f := Fields(message, config);
    var parts := [JoinText(f[0]), JoinText(f[1]), JoinText(f[2]), JoinText(f[3]), message];
    assert forall i :: 0 <= i < |parts| - 1 ==> Delimiter[0] !in parts[i];
    Strings.SplitJoin(parts, Delimiter);
  }

  /** A setting that is absent or a number, and which is therefore rendered as a
      decimal integer. */
  predicate NumericOrAbsent(config: Obj, key: string) {
    Get(config, key).Undefined? || Get(config, key).Num?
  }

  function SettingOr(config: Obj, key: string, fallback: int): int {
    if Get(config, key).Num? then Get(config, key).n else fallback
  }

  lemma DecimalHasNoLt(n: int)
    ensures '<' !in Numerals.DecimalString(n)
  {
    var s := Numerals.DecimalString(n);
    forall i | 0 <= i < |s| ensures s[i] != '<' {
      assert s[i] == '-' || Numerals.IsDigitOf(s[i], 10);
    }
  }

  /** The four settings rendered as decimals and the message, joined and read back. */
  lemma DecodeRendered(a: int, b: int, c: int, d: int, message: string)
    requires !Strings.Occurs(message, Delimiter)
    ensures Decode(Strings.Join([Numerals.DecimalString(a), Numerals.DecimalString(b),
      Numerals.DecimalString(c), Numerals.DecimalString(d), message], Delimiter))
      == Some(Speech(a, b, c, d, message))
  {
    var parts := [Numerals.DecimalString(a), Numerals.DecimalString(b),
      Numerals.DecimalString(c), Numerals.DecimalString(d), message];
    DecimalHasNoLt(a);
    DecimalHasNoLt(b);
    DecimalHasNoLt(c);
    DecimalHasNoLt(d);
    assert forall i :: 0 <= i < |parts| - 1 ==> Delimiter[0] !in parts[i];
    Strings.SplitJoin(parts, Delimiter);
    Numerals.DecimalRoundTrip(a);
    Numerals.DecimalRoundTrip(b);
    Numerals.DecimalRoundTrip(c);
    Numerals.DecimalRoundTrip(d);
  }

  /** A numeric or missing setting renders as the decimal of its value or default. */
  lemma SettingText(config: Obj, key: string, fallback: int)
    requires NumericOrAbsent(config, key)
    ensures JoinText(OrDefault(Get(config, key), fallback))
      == Numerals.DecimalString(SettingOr(config, key, fallback))
  {
  }

  /** Round trip: with numeric or missing settings the receiver reads back each
      setting, -1 (or 0 for the voice type) where it was missing, and the message. */
  lemma DecodePayload(message: string, config: Obj)
    requires NumericOrAbsent(config, "speed") && NumericOrAbsent(config, "pitch")
    requires NumericOrAbsent(config, "volume") && NumericOrAbsent(config, "type")
    requires !Strings.Occurs(message, Delimiter)
    ensures Decode(Payload(message, config)) == Some(Speech(
      SettingOr(config, "speed", -1), SettingOr(config, "pitch", -1),
      SettingOr(config, "volume", -1), SettingOr(config, "type", 0), message))
  {
    SettingText(config, "speed", -1);
    SettingText(config, "pitch", -1);
    SettingText(config, "volume", -1);
    SettingText(config, "type", 0);
    DecodeRendered(SettingOr(config, "speed", -1), SettingOr(config, "pitch", -1),
      SettingOr(config, "volume", -1), SettingOr(config, "type", 0), message);
  }

  lemma DefaultTexts()
    ensures JoinText(Num(-1)) == "-1" && JoinText(Num(0)) == "0"
  {
    assert Numerals.ToBase(1, 10) == "1";
    assert Numerals.ToBase(0, 10) == "0";
  }

  /** With an empty configuration every setting takes its default. */
  lemma DefaultPayload(message: string)
    ensures Payload(message, [])
      == "-1" + Delimiter + "-1" + Delimiter + "-1" + Delimiter + "0" + Delimiter + message
  {
    var f := Fields(message, []);
    assert f[0] == Num(-1) && f[1] == Num(-1) && f[2] == Num(-1) && f[3] == Num(0);
    DefaultTexts();
    assert Payload(message, []) == Strings.Join(["-1", "-1", "-1", "0", message], Delimiter);
    Strings.Join5("-1", "-1", "-1", "0", message, Delimiter);
  }

  /** A setting that is present, whatever its value, is used verbatim (with `null`
      rendered empty, as `join` does). */
  lemma PresentSettingVerbatim(message: string, config: Obj)
    requires Get(config, "speed") != Undefined
    ensures Payload(message, config)[..|JoinText(Get(config, "speed"))|] == JoinText(Get(config, "speed"))
  {
  }
}

=== FILE: storage_keys.dfy ===
/** The fixed storage key names and the per-service key derivation of
    `STORAGE_KEYS`. */
module StorageKeys {

  import opened Wrappers

  const BouyomiType: string := "bouyomiType"
  const NativeBouyomiConfig: string := "nativeBouyomiConfig"
  const BouyomiConfig: string := "bouyomiConfig"
  const Services: string := "services"

  /** `STORAGE_KEYS.getServiceKey(service)`: the `SERVICES` key, an underscore,
      then the service id. */
  function ServiceKey(service: string): (key: string)
    ensures |key| == |service| + 9
    ensures key[..9] == "services_"
    ensures key[9..] == service
  {
    Services + "_" + service
  }

  /** The service id a per-service key was derived from. */
  function ServiceOfKey(key: string): Option<string>
  {
    if |key| >= 9 && key[..9] == "services_" then Some(key[9..]) else None
  }

  lemma ServiceKeyRoundTrip(service: string)
    ensures ServiceOfKey(ServiceKey(service)) == Some(service)
  {
  }

  /** Distinct services never share a storage key. */
  lemma ServiceKeyInjective(a: string, b: string)
    ensures ServiceKey(a) == ServiceKey(b) <==> a == b
  {
    if ServiceKey(a) == ServiceKey(b) {
      ServiceKeyRoundTrip(a);
      ServiceKeyRoundTrip(b);
    }
  }

  /** No per-service key collides with a fixed key. */
  lemma ServiceKeyNotFixed(service: string)
    ensures ServiceKey(service) != BouyomiType
    ensures ServiceKey(service) != NativeBouyomiConfig
    ensures ServiceKey(service) != BouyomiConfig
    ensures ServiceKey(service) != Services
  {
    var key := ServiceKey(service);
    assert key[0] == 's';
    assert |key| >= 9;
  }

  lemma FixedKeysDistinct()
    ensures BouyomiType != NativeBouyomiConfig && BouyomiType != BouyomiConfig
    ensures BouyomiType != Services && NativeBouyomiConfig != BouyomiConfig
    ensures NativeBouyomiConfig != Services && BouyomiConfig != Services
  {
  }
}

=== FILE: strings.dfy ===
/** `Array.prototype.join` and `String.prototype.split` over strings, with the
    round-trip between them that the payload and query formats rely on. */
module Strings {

  import opened Wrappers

  /** `parts.join(sep)`. */
  function Join(parts: seq<string>, sep: string): string
  {
    if |parts| == 0 then ""
    else if |parts| == 1 then parts[0]
    else parts[0] + sep + Join(parts[1..], sep)
  }

  lemma Join5(a: string, b: string, c: string, d: string, e: string, sep: string)
    ensures Join([a, b, c, d, e], sep) == a + sep + b + sep + c + sep + d + sep + e
  {
    assert [a, b, c, d, e][1..] == [b, c, d, e];
    assert [b, c, d, e][1..] == [c, d, e];
    assert [c, d, e][1..] == [d, e];
    assert [d, e][1..] == [e];
    var j4 := d + sep + e;
    var j3 := c + sep + j4;
    var j2 := b + sep + j3;
    assert Join([d, e], sep) == j4;
    assert Join([c, d, e], sep) == j3;
    assert Join([b, c, d, e], sep) == j2;
    assert a + sep + j2 == a + sep + b + sep + c + sep + d + sep + e;
  }

  /** `d` occurs in `s` at position `i`. */
  predicate OccursAt(s: string, d: string, i: nat) {
    i + |d| <= |s| && s[i..i + |d|] == d
  }

  predicate Occurs(s: string, d: string) {
    exists i: nat | i <= |s| :: OccursAt(s, d, i)
  }

  /** A one-character delimiter occurs only where its character does. */
  lemma AbsentCharNeverOccurs(s: string, c: char)
    requires c !in s
    ensures !Occurs(s, [c])
  {
    forall i: nat | i <= |s| ensures !OccursAt(s, [c], i) {
      if i + 1 <= |s| {
        assert s[i..i + 1][0] == s[i];
      }
    }
  }

  /** `s.indexOf(d)`: the leftmost occurrence, None for `-1`. */
  function IndexOf(s: string, d: string): (r: Option<nat>)
    requires |d| > 0
    ensures r.Some? ==> OccursAt(s, d, r.value)
    ensures r.Some? ==> forall j: nat :: j < r.value ==> !OccursAt(s, d, j)
    ensures r.None? <==> !Occurs(s, d)
    decreases |s|
  {
    if |s| < |d| then
      assert forall j: nat :: !OccursAt(s, d, j);
      None
    else if s[..|d|] == d then Some(0)
    else
      match IndexOf(s[1..], d)
      case None =>
        assert forall j: nat :: OccursAt(s, d, j) ==> j >= 1 && OccursAt(s[1..], d, j - 1);
        None
      case Some(i) =>
        assert OccursAt(s, d, i + 1) by { assert s[i + 1..i + 1 + |d|] == s[1..][i..i + |d|]; }
        assert forall j: nat :: 1 <= j < i + 1 ==> !OccursAt(s, d, j) by {
          forall j: nat | 1 <= j < i + 1 ensures !OccursAt(s, d, j) {
            if OccursAt(s, d, j) {
              assert s[j..j + |d|] == s[1..][j - 1..j - 1 + |d|];
              assert OccursAt(s[1..], d, j - 1);
            }
          }
        }
        Some(i + 1)
  }

  /** `s.split(d)` for a non-empty separator: cut at each leftmost occurrence. */
  function Split(s: string, d: string): (parts: seq<string>)
    requires |d| > 0
    ensures |parts| >= 1
    decreases |s|
  {
    match IndexOf(s, d)
    case None => [s]
    case Some(i) => [s[..i]] + Split(s[i + |d|..], d)
  }

  /** When a piece does not contain the separator's first character, the first
      occurrence of the separator after it is right at its end. */
  lemma {:induction false} IndexOfAfterPiece(p: string, d: string, rest: string)
    requires |d| > 0 && d[0] !in p
    ensures IndexOf(p + d + rest, d) == Some(|p|)
  {
    var s := p + d + rest;
    assert OccursAt(s, d, |p|) by { assert s[|p|..|p| + |d|] == d; }
    forall j: nat | j < |p| ensures !OccursAt(s, d, j) {
      assert s[j] == p[j];
    }
  }

  /** Splitting a join gives the parts back when no part but the last contains the
      separator's first character and the last does not contain the separator. */
  lemma {:induction false} SplitJoin(parts: seq<string>, d: string)
    requires |d| > 0 && |parts| >= 1
    requires forall i :: 0 <= i < |parts| - 1 ==> d[0] !in parts[i]
    requires !Occurs(parts[|parts| - 1], d)
    ensures Split(Join(parts, d), d) == parts
    decreases |parts|
  {
    if |parts| > 1 {
      var rest := Join(parts[1..], d);
      var s := parts[0] + d + rest;
      assert Join(parts, d) == s;
      IndexOfAfterPiece(parts[0], d, rest);
      assert s[..|parts[0]|] == parts[0];
      assert s[|parts[0]| + |d|..] == rest;
      SplitJoin(parts[1..], d);
      assert parts == [parts[0]] + parts[1..];
    }
  }
}

=== FILE: uri_encoding.dfy ===
/** `encodeURIComponent`: characters outside its unescaped set are written as the
    UTF-8 bytes of the character, each as `%` and two upper-case hex digits
    (the percent-encoding of section 2.1 of RFC 3986). Dafny characters are Unicode
    scalar values, so the lone-surrogate error case cannot arise here. */
module UriEncoding {

  import opened Wrappers

  type Byte = b: int | 0 <= b < 0x100

  const UpperHex: string := "0123456789ABCDEF"

  /** The characters `encodeURIComponent` leaves as they are: the RFC 3986
      unreserved set plus `!`, `*`, `'`, `(` and `)`. */
  predicate Unescaped(c: char) {
    || ('A' <= c <= 'Z') || ('a' <= c <= 'z') || ('0' <= c <= '9')
    || c == '-' || c == '_' || c == '.' || c == '!' || c == '~'
    || c == '*' || c == '\'' || c == '(' || c == ')'
  }

  /** UTF-8 encoding of one scalar value. */
  function Utf8(c: char): (bs: seq<Byte>)
    ensures 1 <= |bs| <= 4
  {
    var n := c as int;
    if n < 0x80 then [n]
    else if n < 0x800 then [0xC0 + n / 0x40, 0x80 + n % 0x40]
    else if n < 0x1_0000 then [0xE0 + n / 0x1000, 0x80 + (n / 0x40) % 0x40, 0x80 + n % 0x40]
    else [0xF0 + n / 0x4_0000, 0x80 + (n / 0x1000) % 0x40, 0x80 + (n / 0x40) % 0x40, 0x80 + n % 0x40]
  }

  function PercentByte(b: Byte): string
  {
    ['%', UpperHex[b / 16], UpperHex[b % 16]]
  }

  function PercentBytes(bs: seq<Byte>): string
  {
    if |bs| == 0 then "" else PercentByte(bs[0]) + PercentBytes(bs[1..])
  }

  lemma {:induction false} PercentBytesAlphabet(bs: seq<Byte>)
    ensures forall i :: 0 <= i < |PercentBytes(bs)| ==> PercentBytes(bs)[i] == '%' || PercentBytes(bs)[i] in UpperHex
  {
    if |bs| > 0 {
      PercentBytesAlphabet(bs[1..]);
      var head, tail := PercentByte(bs[0]), PercentBytes(bs[1..]);
      assert forall i :: |head| <= i < |head + tail| ==> (head + tail)[i] == tail[i - |head|];
    }
  }

  function EncodeChar(c: char): (s: string)
    ensures forall i :: 0 <= i < |s| ==> Unescaped(s[i]) || s[i] == '%' || s[i] in UpperHex
  {
    if Unescaped(c) then [c]
    else
      PercentBytesAlphabet(Utf8(c));
      PercentBytes(Utf8(c))
  }

  /** `encodeURIComponent(s)`. */
  function EncodeURIComponent(s: string): (r: string)
    ensures forall i :: 0 <= i < |r| ==> Unescaped(r[i]) || r[i] == '%' || r[i] in UpperHex
  {
    if |s| == 0 then ""
    else
      var head, tail := EncodeChar(s[0]), EncodeURIComponent(s[1..]);
      assert forall i :: |head| <= i < |head + tail| ==> (head + tail)[i] == tail[i - |head|];
      head + tail
  }

  /** An encoded component never holds the query separators `&` and `=`. */
  lemma NoQuerySeparators(s: string)
    ensures '&' !in EncodeURIComponent(s) && '=' !in EncodeURIComponent(s)
  {
    var r := EncodeURIComponent(s);
    forall i | 0 <= i < |r| ensures r[i] != '&' && r[i] != '=' {
      assert Unescaped(r[i]) || r[i] == '%' || r[i] in UpperHex;
    }
  }

  // Reference decoders: percent-decoding to bytes, then UTF-8 decoding.

  function HexValue(c: char): (r: Option<nat>)
    ensures r.Some? ==> r.value < 16
  {
    if '0' <= c <= '9' then Some(c as int - '0' as int)
    else if 'A' <= c <= 'F' then Some(c as int - 'A' as int + 10)
    else None
  }

  function PercentDecode(s: string): Option<seq<Byte>>
    decreases |s|
  {
    if |s| == 0 then Some([])
    else if s[0] == '%' then
      if |s| < 3 || HexValue(s[1]).None? || HexValue(s[2]).None? then None
      else
        var rest := PercentDecode(s[3..]);
        if rest.None? then None
        else Some([HexValue(s[1]).value * 16 + HexValue(s[2]).value] + rest.value)
    else if (s[0] as int) < 0x80 then
      var rest := PercentDecode(s[1..]);
      if rest.None? then None else Some([s[0] as int] + rest.value)
    else None
  }

  predicate IsContinuation(b: Byte) {
    0x80 <= b < 0xC0
  }

  /** Length of the UTF-8 sequence a lead byte announces; 0 for a bad lead byte. */
  function SequenceLength(b: Byte): nat {
    if b < 0x80 then 1
    else if 0xC0 <= b < 0xE0 then 2
    else if 0xE0 <= b < 0xF0 then 3
    else if 0xF0 <= b < 0xF8 then 4
    else 0
  }

  predicate IsScalar(n: int) {
    (0 <= n < 0xD800) || (0xE000 <= n < 0x11_0000)
  }

  /** The payload bits of a lead byte and its continuation bytes. */
  function CodePoint(bs: seq<Byte>): int
    requires 1 <= |bs| <= 4
  {
    if |bs| == 1 then bs[0]
    else if |bs| == 2 then Six(bs[0], 0xC0) * 0x40 + Six(bs[1], 0x80)
    else if |bs| == 3 then Six(bs[0], 0xE0) * 0x1000 + Six(bs[1], 0x80) * 0x40 + Six(bs[2], 0x80)
    else Six(bs[0], 0xF0) * 0x4_0000 + Six(bs[1], 0x80) * 0x1000 + Six(bs[2], 0x80) * 0x40 + Six(bs[3], 0x80)
  }

  function Six(b: Byte, marker: int): int {
    b as int - marker
  }

  function Utf8Decode(bs: seq<Byte>): Option<string>
    decreases |bs|
  {
    if |bs| == 0 then Some("")
    else
      var n := SequenceLength(bs[0]);
      if n == 0 || |bs| < n || !(forall i :: 1 <= i < n ==> IsContinuation(bs[i])) then None
      else
        var cp := CodePoint(bs[..n]);
        if !IsScalar(cp) then None
        else match Utf8Decode(bs[n..])
          case Some(rest) => Some([cp as char] + rest)
          case None => None
  }

  function Utf8String(s: string): seq<Byte>
  {
    if |s| == 0 then [] else Utf8(s[0]) + Utf8String(s[1..])
  }

  /** The bytes of one character decode back to that character. */
  lemma Utf8CharRoundTrip(c: char)
    ensures SequenceLength(Utf8(c)[0]) == |Utf8(c)|
    ensures forall i :: 1 <= i < |Utf8(c)| ==> IsContinuation(Utf8(c)[i])
    ensures CodePoint(Utf8(c)) == c as int
  {
    var n := c as int;
    if n < 0x80 {
    } else if n < 0x800 {
      TwoBytes(n);
    } else if n < 0x1_0000 {
      ThreeBytes(n);
    } else {
      FourBytes(n);
    }
  }

  lemma TwoBytes(n: int)
    requires 0x80 <= n < 0x800
    ensures 0xC0 <= 0xC0 + n / 0x40 < 0xE0 && 0 <= n % 0x40 < 0x40
    ensures (n / 0x40) * 0x40 + n % 0x40 == n
  {
  }

  lemma ThreeBytes(n: int)
    requires 0x800 <= n < 0x1_0000
    ensures 0xE0 <= 0xE0 + n / 0x1000 < 0xF0
    ensures 0 <= (n / 0x40) % 0x40 < 0x40 && 0 <= n % 0x40 < 0x40
    ensures (n / 0x1000) * 0x1000 + ((n / 0x40) % 0x40) * 0x40 + n % 0x40 == n
  {
    var q := n / 0x40;
    assert q * 0x40 + n % 0x40 == n;
    assert (q / 0x40) * 0x40 + q % 0x40 == q;
    assert q / 0x40 == n / 0x1000;
  }

  lemma FourBytes(n: int)
    requires 0x1_0000 <= n < 0x11_0000
    ensures 0xF0 <= 0xF0 + n / 0x4_0000 < 0xF8
    ensures 0 <= (n / 0x1000) % 0x40 < 0x40 && 0 <= (n / 0x40) % 0x40 < 0x40 && 0 <= n % 0x40 < 0x40
    ensures (n / 0x4_0000) * 0x4_0000 + ((n / 0x1000) % 0x40) * 0x1000
      + ((n / 0x40) % 0x40) * 0x40 + n % 0x40 == n
  {
    var q := n / 0x40;
    var r := q / 0x40;
    assert q * 0x40 + n % 0x40 == n;
    assert r * 0x40 + q % 0x40 == q;
    assert (r / 0x40) * 0x40 + r % 0x40 == r;
    assert r == n / 0x1000;
    assert r / 0x40 == n / 0x4_0000;
  }

  lemma {:induction false} Utf8RoundTrip(s: string)
    ensures Utf8Decode(Utf8String(s)) == Some(s)
  {
    if |s| > 0 {
      var bs, rest := Utf8(s[0]), Utf8String(s[1..]);
      Utf8CharRoundTrip(s[0]);
      Utf8RoundTrip(s[1..]);
      var all := bs + rest;
      assert all[..|bs|] == bs;
      assert all[|bs|..] == rest;
      assert forall i :: 1 <= i < |bs| ==> all[i] == bs[i];
      assert [s[0]] + s[1..] == s;
    }
  }

  lemma PercentByteDecode(b: Byte, tail: string, r: seq<Byte>)
    requires PercentDecode(tail) == Some(r)
    ensures PercentDecode(PercentByte(b) + tail) == Some([b] + r)
  {
    var s := PercentByte(b) + tail;
    HexDigitRoundTrip(b / 16);
    HexDigitRoundTrip(b % 16);
    assert s[0] == '%' && s[1] == UpperHex[b / 16] && s[2] == UpperHex[b % 16];
    assert s[3..] == tail;
  }

  lemma {:induction false} PercentBytesDecode(bs: seq<Byte>, rest: string, r: seq<Byte>)
    requires PercentDecode(rest) == Some(r)
    ensures PercentDecode(PercentBytes(bs) + rest) == Some(bs + r)
  {
    if |bs| == 0 {
      assert PercentBytes(bs) + rest == rest;
      assert bs + r == r;
    } else {
      PercentBytesDecode(bs[1..], rest, r);
      PercentBytesStep(bs, rest, r);
    }
  }

  lemma PercentBytesStep(bs: seq<Byte>, rest: string, r: seq<Byte>)
    requires |bs| > 0
    requires PercentDecode(PercentBytes(bs[1..]) + rest) == Some(bs[1..] + r)
    ensures PercentDecode(PercentBytes(bs) + rest) == Some(bs + r)
  {
    var head, tail := PercentByte(bs[0]), PercentBytes(bs[1..]) + rest;
    var whole := PercentBytes(bs) + rest;
    assert whole == head + tail by {
      assert PercentBytes(bs) == head + PercentBytes(bs[1..]);
    }
    PercentByteDecode(bs[0], tail, bs[1..] + r);
    assert PercentDecode(whole) == Some([bs[0]] + (bs[1..] + r));
    assert [bs[0]] + (bs[1..] + r) == bs + r;
  }

  lemma HexDigitRoundTrip(d: nat)
    requires d < 16
    ensures HexValue(UpperHex[d]) == Some(d)
  {
  }

  lemma {:induction false} EncodeDecodeBytes(s: string)
    ensures PercentDecode(EncodeURIComponent(s)) == Some(Utf8String(s))
  {
    if |s| > 0 {
      var c := s[0];
      EncodeDecodeBytes(s[1..]);
      var tail := EncodeURIComponent(s[1..]);
      if Unescaped(c) {
        assert ([c] + tail)[1..] == tail;
      } else {
        PercentBytesDecode(Utf8(c), tail, Utf8String(s[1..]));
      }
    }
  }

  /** Round trip: percent-decoding an encoded component and reading the bytes as
      UTF-8 gives the original string, so distinct strings encode differently. */
  lemma EncodeRoundTrip(s: string)
    ensures PercentDecode(EncodeURIComponent(s)).Some?
    ensures Utf8Decode(PercentDecode(EncodeURIComponent(s)).value) == Some(s)
  {
    EncodeDecodeBytes(s);
    Utf8RoundTrip(s);
  }

  lemma EncodeInjective(a: string, b: string)
    ensures EncodeURIComponent(a) == EncodeURIComponent(b) <==> a == b
  {
    EncodeRoundTrip(a);
    EncodeRoundTrip(b);
  }
}

=== FILE: wrappers.dfy ===
/** Option and Result, the two failure-carrying shapes the rest of the model uses
    for the source's `undefined` returns and thrown errors. */
module Wrappers {

  datatype Option<+T> = None | Some(value: T)

  datatype Result<+R, +E> = Ok(value: R) | Err(error: E)
}
